=== FILE: README.md ===
# New Year page: a Dafny model of its timer, gallery, wishes and particle logic

This project models the logic in a decorative New Year countdown web page that can be stated precisely:

- **Countdown.** It splits the time left into days, hours, minutes and seconds. It pads each field to two digits and decides which fields animate by reading the shown text back with `parseInt`. It also sets the "last minute" and "last ten seconds" flags, handles completion, and keeps the start/stop interval bookkeeping.
- **Gallery.** It covers wrap-around navigation, the key handler that only acts in fullscreen, the extension filter of `addImage`, and the name sort that produces the grid. The grid is sorted while the viewer indexes the unsorted list.
- **Wishes.** It picks a wish at random or in turn and holds one modal at a time. Closing the modal removes it later, on a delay. The `\n` rewrite applies to messages, and a special completion wish behaves differently.
- **Fireworks.** It tracks the projectile and particle lists: launch, flight, explosion, the 1500-particle trim, particle ageing and removal, colour clamping, drawn size, and teardown.
- **Snowfall.** It keeps a fixed-size flake pool. Each frame drifts the flakes, recycles those that leave the viewport, and can temporarily grow the pool and shrink it back. Pausing, resuming and hiding form a small state machine.

Each component is one module of pure functions over immutable datatypes. `JsNumber` and `JsString` hold the JavaScript behaviour the components rely on:

- the truncating `%`;
- the NaN index after `% 0`;
- `Math.floor(Math.random() * n)`;
- `parseInt`;
- ASCII `toLowerCase`;
- `lastIndexOf`;
- one-argument `substring`;
- the backslash-`n` rewrite.

The model takes these inputs as parameters:

- every `Math.random()` value, as a `Unit` in [0, 1);
- the wall-clock time;
- timer and frame ids, as positive `Handle`s;
- the viewport size;
- `Math.sin`;
- each explosion particle's trigonometric velocity.

Positions and lifetimes are exact `real`s.

The backward splice loops of `updateFireworks` and `updateParticles` are modelled as methods. Their loop invariants show that each loop computes a forward, order-preserving filter.

## Model

| member | source | states |
|---|---|---|
| JsNumber.Rem | js/gallery.js:255 | JavaScript's `%` on integers is the remainder of a division truncated toward zero: a = q·n + r for some integer q, with r in [0, n) for a ≥ 0 and in (−n, 0] for a ≤ 0 |
| JsNumber.RemTruncates | js/gallery.js:255 | any quotient–remainder split of a whose remainder has a's sign and lies within n is the one `%` returns, so the result is unique |
| JsNumber.Shift | js/gallery.js:261 | `(index + delta) % length` is NaN for an empty list or a NaN index, and a valid position otherwise whenever index + delta ≥ 0 |
| JsNumber.ShiftForward | js/gallery.js:261 | stepping forward from a valid position gives the next one and wraps only from the last position to 0 |
| JsNumber.ShiftBackward | js/gallery.js:255 | stepping back by length − 1 gives the previous position and wraps only from 0 to the last |
| JsNumber.RandomPosition | js/wishes.js:81 | `Math.floor(r * n)` with r in [0, 1) is a valid position of a non-empty list, and 0 for an empty one |
| JsString.Digits | js/countdown.js:197 | printing a natural number gives at least one digit, all decimal, and a single digit exactly below ten |
| JsString.DigitRun | js/countdown.js:153 | the leading digit run `parseInt` reads is all digits and stops at the first non-digit |
| JsString.ValueOfDigits | js/countdown.js:197 | reading the printed digits of n gives n back |
| JsString.ValueOfLeadingZero | js/countdown.js:197 | a leading "0" does not change the value read |
| JsString.Decimal | js/countdown.js:197 | `${n}` is non-empty; for n ≥ 0 it is all digits with value n, and for n < 0 it is '-' followed by the digits of −n |
| JsString.ParseInt | js/countdown.js:153-156 | `parseInt` yields a number exactly when the text starts with a digit, or with a sign followed by a digit; the result is ≤ 0 after '-' and ≥ 0 otherwise; an all-digit text reads as its value |
| JsString.ParseIntPrefix | js/countdown.js:153-156 | `parseInt` reads the leading digits and ignores whatever non-digit text follows them |
| JsString.ParseDecimal | js/countdown.js:153-156 | `parseInt` of any printed integer, negative ones included, returns that integer |
| JsString.LowerChar | js/gallery.js:286 | lower-casing maps each letter A to Z to the same letter a to z (code + 32) and keeps every other character |
| JsString.ToLower | js/gallery.js:286 | lower-casing keeps the length and lower-cases position by position |
| JsString.LastIndexOf | js/gallery.js:286 | the result is -1 or a position holding the character, and no later position holds it |
| JsString.Substring | js/gallery.js:286 | a negative start, such as the -1 of a missing dot, yields the whole string; a start past the end yields "" |
| JsString.ReplaceLiteralBreaks | js/wishes.js:161 | the rewrite grows the text by 2 per backslash-`n` pair, leaves no pair behind, and keeps the number of real newlines |
| JsString.ReplaceIdentityIff | js/wishes.js:161 | a message is rendered unchanged exactly when it holds no backslash-`n` pair |
| JsString.NoBreaksUnchanged | js/wishes.js:161 | a message with no pair is rendered as written |
| JsString.ReplaceIdempotent | js/wishes.js:161 | rendering an already rendered message changes nothing |
| JsString.NoBreakCount | js/wishes.js:161 | a text with no pair at any position has a pair count of zero |
| JsString.ReplaceLeadingBreak | js/wishes.js:161 | a leading backslash-`n` becomes `<br>`, and the rest is rendered on its own |
| JsString.ReplaceLeadingChar | js/wishes.js:161 | a leading character other than a backslash is copied, and the rest is rendered on its own |
| JsString.NoBackslashVerbatim | js/wishes.js:161 | a message without a backslash is rendered exactly as written, real newlines included |
| Countdown.New | js/countdown.js:19-21 | a new countdown holds no interval, shows "00" in every field and has not completed |
| Countdown.Decompose | js/countdown.js:124-130 | for diff > 0: days ≥ 0, hours < 24, minutes < 60, seconds < 60, and days·86400 + hours·3600 + minutes·60 + seconds = diff div 1000 |
| Countdown.FormatNumber | js/countdown.js:196-198 | below ten: "0" followed by the digit; otherwise the plain decimal; two characters for 0..99, and the digits read back as n |
| Countdown.FormatRoundTrip | js/countdown.js:153-162 | `parseInt(formatNumber(n)) == n` for every n ≥ 0 |
| Countdown.UpdateDisplay | js/countdown.js:151-179 | the fields receive their padded values; days, hours and minutes bounce exactly when `parseInt` of the shown text differs from the new value; seconds always pulse |
| Countdown.FieldAnim | js/countdown.js:159-175 | a day, hour or minute field never pulses; for digit text it bounces exactly when the shown value differs from the new one; text `parseInt` cannot read always bounces |
| Countdown.BounceIffChanged | js/countdown.js:159-175 | after one update, a field bounces on the next update exactly when its value changed |
| Countdown.FirstUpdateBounces | js/countdown.js:67 | starting from "00", a field bounces on the first update exactly when its value is not zero |
| Countdown.Start | js/countdown.js:92-100 | the previously held interval is cleared before the new one is registered, so exactly one interval is live |
| Countdown.Stop | js/countdown.js:103-108 | no interval stays live and `intervalId` is null, whatever the starting state |
| Countdown.StopIdempotent | js/countdown.js:103-108 | stopping twice is stopping once |
| Countdown.Complete | js/countdown.js:201-213 | the completion handler runs once more and leaves the page in its celebrating state |
| Countdown.Tick | js/countdown.js:111-148 | diff ≤ 0: all fields "00", interval cleared, completion run once more. diff > 0: `countdown-large` iff total ≤ 60 s, `countdown-huge` iff total ≤ 10 s, timer untouched |
| Countdown.Running | js/countdown.js:124-147 | the update while time is left (the branch `Tick` takes for diff > 0): each of the four fields shows the padded count and reads back through `parseInt` as the matching day, hour, minute or second of the time left; `countdown-large` iff at most 60 s are left and `countdown-huge` iff at most 10 s; nothing else changes |
| Countdown.DisplayReadsBack | js/countdown.js:151-178 | each field of a display written for non-negative counts reads back through `parseInt` as its count |
| Countdown.ExampleOneHourOneMinuteOneSecond | js/countdown.js:124-127 | 3661000 ms left is shown as 00, 01, 01, 01 |
| Countdown.TimerTick | js/countdown.js:97-99 | a timer callback changes nothing once no interval is registered, and runs completion at most once more |
| Countdown.Run | js/countdown.js:97-99 | any sequence of timer callbacks keeps the interval table consistent with `intervalId` |
| Countdown.InitAsWritten | js/countdown.js:49-52 | the constructor's update-then-start always leaves an interval registered, even when the update completed the countdown |
| Countdown.AsWrittenCompletesTwice | js/countdown.js:49-52 | a page opened at or after the target runs completion twice: once in `init` and once on the first tick |
| Countdown.Init | js/countdown.js:49-52 | corrected start-up: an interval exists exactly when time is left, and completion has run exactly when none is |
| Countdown.InitCompletesAtMostOnce | js/countdown.js:116-120 | with the corrected start-up, no sequence of ticks runs completion more than once |
| Countdown.InitAsWrittenAgrees | js/countdown.js:49-52 | the start-up as written equals the corrected one exactly when the page opens before the target |
| Countdown.AsWrittenCompletesAtMostOnce | js/countdown.js:49-52 | opened before the target, the start-up as written completes at most once over any sequence of ticks |
| Countdown.RunKeepsCompletesOnce | js/countdown.js:116-120 | ticks preserve the invariant "completed at most once, and never with a live interval" |
| Gallery.LeqTotal | js/gallery.js:152 | the default string order compares any two strings |
| Gallery.LeqTransitive | js/gallery.js:152 | the default string order is transitive |
| Gallery.Insert | js/gallery.js:152 | inserting into a sorted list keeps it sorted and adds exactly that one element |
| Gallery.SortByName | js/gallery.js:145-153 | the name sort returns an ascending permutation of its input |
| Gallery.GridOf | js/gallery.js:89-121 | the grid is the empty hint exactly for an empty list, and otherwise tiles a sorted permutation of the list |
| Gallery.Load | js/gallery.js:45-68 | a new gallery holds the thirteen built-in paths at index 0, not in fullscreen |
| Gallery.UpdateContent | js/gallery.js:245-251 | the image and caption "图片 k/n" are updated when `images[index]` is truthy; otherwise nothing changes |
| Gallery.ShowsImage | js/gallery.js:246 | `images[index]` can be truthy only for a valid index, so never with no images or a NaN index |
| Gallery.Caption | js/gallery.js:248-249 | the caption starts with "图片 " and has more after it |
| Gallery.CaptionNumber | js/gallery.js:248-249 | for an index i ≥ 0, the number after "图片 " reads back as the 1-based position i + 1 |
| Gallery.CaptionTotal | js/gallery.js:248-249 | after the position the caption has a "/", and the rest reads back as the image count n |
| Gallery.OpenFullscreen | js/gallery.js:205-210 | the index becomes i, fullscreen is set, and a present image is shown |
| Gallery.CloseFullscreen | js/gallery.js:227-228 | fullscreen is left; the image list and the index are kept |
| Gallery.ShowNext | js/gallery.js:260-263 | on a valid index the next index stays in range and wraps n−1 to 0; with no images the index becomes NaN and nothing is shown |
| Gallery.ShowPrevious | js/gallery.js:254-257 | on a valid index the previous index stays in range and wraps 0 to n−1; with no images the index becomes NaN |
| Gallery.PreviousAfterNext | js/gallery.js:254-263 | previous after next, and next after previous, return to the same index |
| Gallery.HandleKeydown | js/gallery.js:266-280 | outside fullscreen nothing happens; in fullscreen Escape closes, ArrowLeft goes back, ArrowRight goes forward, and other keys do nothing |
| Gallery.Extension | js/gallery.js:286 | the lower-cased suffix from the last dot, starting with '.', or the whole lower-cased path when there is no dot |
| Gallery.AllowedExtensions | js/gallery.js:285 | a configured list is used as given, an empty one included since an array is truthy; otherwise exactly the three suffixes ".jpg", ".jpeg" and ".png" |
| Gallery.AddImage | js/gallery.js:283-292 | the path is appended unchanged exactly when its extension is in the allowed list; otherwise nothing changes |
| Gallery.UpperCaseExtensionAccepted | js/gallery.js:285-290 | "a.JPG" passes the default filter |
| Gallery.OtherExtensionRefused | js/gallery.js:285-291 | "a.gif" is refused and nothing changes |
| Gallery.DotlessPathComparedWhole | js/gallery.js:286-288 | without a dot the whole lower-cased path is compared: "PNG" passes when "png" is allowed |
| Gallery.ClickTile | js/gallery.js:137 | clicking tile k opens index k of the unsorted list |
| Gallery.TileOpensUnsortedImage | js/gallery.js:115-137 | with images ["b.jpg", "a.jpg"], tile 0 shows "a.jpg" but opens "b.jpg" |
| Gallery.ClickTileInGridOrder | js/gallery.js:115-137 | corrected click: the viewer takes the grid's order, so it holds the same images and opens the path the tile shows |
| Gallery.TileInGridOrderOpensShownImage | js/gallery.js:115-137 | with the corrected click, the tile showing "a.jpg" opens "a.jpg" |
| Wishes.New | js/wishes.js:13-19 | a new component holds no modal and no Escape handler, at index 0 |
| Wishes.RemoveModal | js/wishes.js:204-216 | leaves no modal and unregisters the handler; a no-op when there is no modal |
| Wishes.CreateModal | js/wishes.js:143-181 | holds the new wish, with the "another wish" button exactly for non-special wishes, the message rendered by the backslash-`n` rewrite (hence free of such pairs), and the handler registered |
| Wishes.ShowWish | js/wishes.js:99-122 | exactly one modal, for the given wish and with its message rendered by the backslash-`n` rewrite, with any previous one removed first; an undefined wish throws after the removal and leaves none; special effects exactly for special wishes; 5 firework launches when fireworks exist |
| Wishes.At | js/wishes.js:83 | `wishes[index]` is defined exactly for a valid index |
| Wishes.ShowRandomWish | js/wishes.js:80-84 | the index becomes floor(r·len), a valid position whose wish is shown; an empty list throws and leaves no modal |
| Wishes.ShowNextWish | js/wishes.js:184-187 | the index becomes (index+1) mod len and that wish is shown; an empty list makes the index NaN and throws |
| Wishes.ShowSpecialWish | js/wishes.js:87-96 | the special wish is shown without the "another wish" button and with the special effects |
| Wishes.CloseModal | js/wishes.js:190-201 | a no-op without a modal; otherwise it starts the closing animation and schedules one removal |
| Wishes.RemovalFires | js/wishes.js:198-200 | a scheduled removal removes whatever modal is held when it fires |
| Wishes.HandleKeydown | js/wishes.js:219-224 | Escape closes the modal; other keys do nothing |
| Wishes.AddWish | js/wishes.js:280-282 | the wish is appended at the end and existing wishes are unchanged |
| Wishes.CloseThenRemovalLeavesNone | js/wishes.js:190-216 | closing and letting the removal fire leaves no modal |
| Wishes.StaleRemovalHidesNewWish | js/wishes.js:198-200 | a wish shown during the closing animation is removed by the earlier removal |
| Wishes.VerbatimWithoutBackslash | js/wishes.js:161 | a wish message without a backslash is shown exactly as written |
| Wishes.SpecialMessageHasRealNewline | js/wishes.js:90 | the special message holds a real newline and no backslash, so it is not turned into `<br>` |
| Wishes.LiteralBackslashNRendered | js/wishes.js:161 | a message starting with backslash-`n` is shown with `<br>` in its place and the rest as written |
| Fireworks.Launch | js/fireworks.js:147-159 | appends exactly one projectile with 60·dx = targetX − x and 60·dy = targetY − y, leaving the others and the particles unchanged |
| Fireworks.PickColor | js/fireworks.js:326-329 | a colour from the configured palette (white when none is configured), undefined for an empty configured palette |
| Fireworks.OnClick | js/fireworks.js:372-385 | a click launches a manual projectile from the bottom centre towards the click point |
| Fireworks.Move | js/fireworks.js:173-174 | one frame of flight adds the velocity to the position and keeps target, velocity, colour and the manual flag |
| Fireworks.Arrived | js/fireworks.js:183-187 | an arrived projectile is within 5 px of its target on each axis, and one exactly on its target has arrived |
| Fireworks.MoveNPosition | js/fireworks.js:173-174 | after k frames a projectile sits at origin + k·velocity, with the target unchanged |
| Fireworks.ArrivesWithinSixtyFrames | js/fireworks.js:153-187 | a launched projectile is exactly on its target after 60 frames, so the distance test has fired by then |
| Fireworks.LaunchExample | js/fireworks.js:153-154 | from (100, 500) to (300, 200) the step is (10/3, −5) |
| Fireworks.Clamp | js/fireworks.js:239 | the result is in [0, 255] and equals the input when the input already is |
| Fireworks.Jitter | js/fireworks.js:237-240 | every colour component of a particle lies in [0, 255] |
| Fireworks.MakeParticle | js/fireworks.js:246-263 | a particle starts at the explosion point, with clamped colours, life and maxLife in [L, L+30), gravity in [0.01, 0.05), and a size range that depends on its type |
| Fireworks.Explode | js/fireworks.js:201-267 | an explosion appends exactly particleCount particles, the k-th built from the k-th draw |
| Fireworks.ExplosionSizes | js/fireworks.js:203 | the configured 100 wins; without it, 150 for manual and 120 for automatic |
| Fireworks.ParticleCount | js/fireworks.js:203 | the count is positive: the configured count when set, otherwise 150 for a click and 120 for an automatic launch |
| Fireworks.Lifetime | js/fireworks.js:256-257 | the base particle lifetime is never 0: a configured non-zero lifetime is used as given, and a configured 0 becomes the positive default 70 |
| Fireworks.Kept | js/fireworks.js:168-198 | the projectiles left after a pass never include one that has arrived |
| Fireworks.KeptMembership | js/fireworks.js:168-198 | a projectile is left after the pass exactly when it is the moved copy of an input projectile that has not arrived |
| Fireworks.KeptAppend | js/fireworks.js:169-197 | the projectile pass distributes over concatenation, so projectiles in flight keep their relative order |
| Fireworks.BurstAt | js/fireworks.js:187-189 | a projectile leaves particles exactly when it arrives, and then exactly particleCount of them |
| Fireworks.BurstsNoneArrive | js/fireworks.js:169-197 | the explosions of a pass (`Bursts`, last projectile first) are empty when no projectile arrives |
| Fireworks.BurstsNonEmpty | js/fireworks.js:169-197 | every arriving projectile contributes at least its particleCount particles to the pass |
| Fireworks.NoneArriveAllKept | js/fireworks.js:168-198 | when none arrive, every projectile is kept, moved once, in order |
| Fireworks.Decay | js/fireworks.js:275-282 | ageing lowers life by exactly 1 and keeps size, maxLife and colour |
| Fireworks.Survivors | js/fireworks.js:270-323 | the kept particles all have life > 0 and are no more than before |
| Fireworks.SurvivorsMembership | js/fireworks.js:319-321 | a particle is kept exactly when it is the aged copy of an input particle with life left |
| Fireworks.SurvivorsAppend | js/fireworks.js:271-321 | the particle pass distributes over concatenation, so relative order is kept |
| Fireworks.AllSurvive | js/fireworks.js:319-321 | when every particle outlives the frame, none is removed |
| Fireworks.Trim | js/fireworks.js:74-76 | at most 1500 particles afterwards; above 1500 the last 1500 are kept in order, otherwise nothing changes |
| Fireworks.TrimIdempotent | js/fireworks.js:74-76 | trimming twice is trimming once, and the kept particles are the input's tail |
| Fireworks.Frame | js/fireworks.js:68-86 | after a frame no arrived projectile remains, every particle has life left, and no projectile is added; the next frame is requested and its handle stored, while the auto-launch handle is untouched |
| Fireworks.UpdateFireworks | js/fireworks.js:168-198 | the backward splice loop leaves exactly the projectiles of the forward filter and appends the explosions of the arrived ones |
| Fireworks.UpdateParticles | js/fireworks.js:270-323 | the backward splice loop leaves exactly the forward filter of aged particles with life > 0 |
| Fireworks.AnimateFrame | js/fireworks.js:68-86 | one frame is trim, then projectiles, then particles, then a new frame request; afterwards at most 1500 plus this frame's explosions remain |
| Fireworks.BurstOrder | js/fireworks.js:169-189 | the pass runs backwards, so when two projectiles explode in the same frame, the later one's particles come first |
| Fireworks.BurstLives | js/fireworks.js:256 | every particle an explosion appends starts with at least the configured lifetime |
| Fireworks.CapExceededAfterExplosion | js/fireworks.js:74-82 | the cap holds only right after the trim: 1500 particles plus one explosion leave 1600 |
| Fireworks.AlphaSign | js/fireworks.js:285 | opacity is positive exactly while life is left |
| Fireworks.DrawnSize | js/fireworks.js:285-286 | the drawn size is never negative, and is positive exactly while life is left |
| Fireworks.SizeNonIncreasing | js/fireworks.js:282-286 | the drawn size does not grow from one frame to the next |
| Fireworks.AlphaCanExceedOne | js/fireworks.js:256-257 | life and maxLife are drawn independently, so opacity can start above 1 |
| Fireworks.Destroy | js/fireworks.js:388-394 | both lists end up empty and the pending frame is cancelled; the auto-launch interval survives |
| Fireworks.DestroyIdempotent | js/fireworks.js:388-394 | destroying twice is destroying once, and a frame afterwards has nothing to move |
| Fireworks.DestroyAfterFrameCancels | js/fireworks.js:389-391 | after any frame the stored handle is the request made at the end of that frame (js/fireworks.js:85), so a later `destroy` cancels it and leaves the auto-launch interval alone |
| Snowfall.FlakeCount | js/snowfall.js:13 | the pool size is the configured count, or 100 when none is configured |
| Snowfall.DefaultRanges | js/snowfall.js:14-15 | a configured size or speed range is used as given; without one, sizes come from 1 to 8 and speeds from 1 to 5, both proper ranges of positive values, so every default flake is visible and falls |
| Snowfall.WindForce | js/snowfall.js:16 | the wind is never 0: a configured non-zero wind is used as given, and a configured 0 is falsy and becomes the positive default 0.5 |
| Snowfall.WindNeverOff | js/snowfall.js:16 | the configured wind is kept exactly when it is non-zero; configuring 0 gives the same wind as configuring 0.5 |
| Snowfall.Pick | js/snowfall.js:62-69 | a drawn size or speed lies in its configured range |
| Snowfall.NewFlake | js/snowfall.js:57-102 | a new flake starts at y = −20 with no wind offset or rotation, with size and speed in range and x within the viewport |
| Snowfall.Init | js/snowfall.js:48-53 | the pool starts with exactly `count` new flakes and a frame request |
| Snowfall.Drift | js/snowfall.js:113-121 | each frame adds speed to y, 0.01 to the wind phase, the wind offset to x, and rotationSpeed to rotation |
| Snowfall.Outside | js/snowfall.js:127-128 | a flake placed at y = −20 inside a viewport of non-negative size is not outside; one more than 100 px left of it is |
| Snowfall.NewFlakeInside | js/snowfall.js:57-128 | a new flake is never recycled before it has moved |
| Snowfall.Sweep | js/snowfall.js:111-136 | the `forEach` pass keeps the pool size and never touches positions already passed |
| Snowfall.SweepNoneLeave | js/snowfall.js:111-125 | when no visited flake leaves, the pass as written drifts every flake from position k on in place, once |
| Snowfall.SweepAgreesWhenNoneLeave | js/snowfall.js:111-136 | when no flake leaves, the pass as written equals the corrected pass |
| Snowfall.SweepOneRecycle | js/snowfall.js:111-136 | with one recycle at position k and no other flake leaving, the next flake keeps its old state, every later flake drifts once, and the fresh flake pushed at the end is drifted too |
| Snowfall.LastRecycledAtEnd | js/snowfall.js:127-134 | when the last flake leaves, it is removed and a fresh flake is pushed in its place |
| Snowfall.RecycleSkipsNext | js/snowfall.js:127-134 | when a flake is recycled, the flake after it is not moved in that frame |
| Snowfall.InPlaceMovesEveryFlake | js/snowfall.js:111-136 | in the corrected pass each flake moves once, and is replaced in place exactly when it left the viewport |
| Snowfall.SweepInPlace | js/snowfall.js:111-136 | the corrected pass keeps the pool size; InPlaceMovesEveryFlake characterises each position |
| Snowfall.Frame | js/snowfall.js:105-141 | a frame keeps the pool size and requests the next frame; it changes nothing while paused |
| Snowfall.FrameAgreesWhenNoneLeave | js/snowfall.js:105-141 | a frame in which no flake leaves drifts every flake once, in place, and equals the corrected frame |
| Snowfall.FrameInPlace | js/snowfall.js:105-141 | the corrected frame moves or replaces every flake in its own position |
| Snowfall.AddFlakes | js/snowfall.js:148-150 | the loop appends one flake per integer from the current size up to the target, leaving existing flakes untouched |
| Snowfall.Intensify | js/snowfall.js:144-150 | the pool grows to max(current, ⌈count·factor⌉) by appending, and existing flakes are untouched |
| Snowfall.Normalize | js/snowfall.js:159-167 | popping from the end keeps the first `count` flakes, and is a no-op when there are no more than that |
| Snowfall.IntensifyThenNormalize | js/snowfall.js:144-167 | from a pool of `count` flakes, intensifying by a factor ≥ 1 and then normalising gives back the same flakes |
| Snowfall.TripledAtCompletion | js/snowfall.js:222 | tripling the default pool gives 300 flakes |
| Snowfall.Pause | js/snowfall.js:170-176 | with a live id, the id is cleared and the pool is paused; with none, nothing changes |
| Snowfall.Resume | js/snowfall.js:179-184 | acts only when paused with no id, then unpauses and requests a frame |
| Snowfall.Toggle | js/snowfall.js:187-197 | a hidden pool is shown and resumed; a shown pool is hidden and paused |
| Snowfall.ToggleTwiceResumes | js/snowfall.js:187-197 | toggling a running pool off and on restores it, with a new frame id |
| Snowfall.PausedFramesAreInert | js/snowfall.js:107 | pausing twice is pausing once, and frames change nothing while paused |

## Left out

- Rendering is not modelled: canvas drawing (arcs, fills, trails, sparkle halos), DOM construction, inline styles, CSS classes other than the two countdown flags, and the fade-in `wish-modal-visible` class.
- Web Audio (`initAudio`, `playSound`) is a foreign browser API and is not modelled.
- Scheduling is not modelled. This covers `setInterval`, `setTimeout` and `requestAnimationFrame` callback ordering, and the 90 s, 60 s and 5 s celebration windows. Timer and frame ids are `Handle` parameters. The wishes close delay is a counter of pending removals. The 5-second `normalizeSnowfall` timeout is a separate operation.
- Three other interval routines are not modelled: the automatic launch intervals (`startAutoLaunch`, `intensifyAutoLaunch`, `resetAutoLaunch`), the continuous celebration launches, and the firecracker and confetti bursts. They only schedule launches or DOM nodes. Launches go through the modelled `Launch`.
- The `showCompletedMessage` wrappers installed by the wishes and snowfall components are not modelled. They are cross-component glue whose effect depends on script load order.
- Explosion patterns (circle, star, flower, random) and the speed draw are not modelled. They only determine each particle's velocity, which is a parameter (`ParticleDraw.dx`, `dy`).
- `Math.sin` for the snow drift is a function parameter. The flake's element transform and opacity style are not modelled.
- Floating point is replaced by exact reals. Under floating point, 60 steps of (targetX − x)/60 need not land exactly on the target, but they do land within the 5 px radius.
- Fireworks.Arrived: compares squared distance with 25 instead of taking a square root; the two agree for non-negative distances.
- Gallery.SortByName: the `sortOrder == 'random'` branch is not modelled. Its comparator is inconsistent and its result depends on the engine. The name sort compares characters by code point, while JavaScript compares UTF-16 code units; the two orders differ only above U+FFFF.
- JsString.ToLower: lower-cases ASCII letters only; `toLowerCase` also maps non-ASCII letters.
- JsString.ParseInt: does not skip leading whitespace or read a `0x` prefix. Neither occurs in the texts the countdown writes.
- Fireworks.PickColor: an empty configured palette gives an undefined colour. On the next frame, reading `firework.color[0]` (js/fireworks.js:179) throws before `requestAnimationFrame` (js/fireworks.js:85) is called again. The projectile never explodes and the animation loop stops. The model does not carry that throw.
- Fireworks.DrawnSize: requires a positive maxLife. maxLife is `L + Math.random()·30` for the configured lifetime L. Any negative L can make it zero or negative, and L ≤ −30 always does. JavaScript would then produce NaN, an infinite alpha or a negative alpha.
- The model starts from an already constructed component. Constructors that bail out on a missing container are not modelled.
- js/chinese-effects.js, js/decorations.js and the tryLoadDynamicImages logging are not modelled: they are DOM effects and logging. js/config.js contributes only the constants used here: 100 particles, lifetime 60, manual brightness 2, 100 snowflakes.

## Findings

| source | as written | input that shows it | evidently intended | confidence | as-written member | corrected member |
|---|---|---|---|---|---|---|
| js/countdown.js:49-52 | `init` runs one update, then calls `start()` unconditionally; an update that already completed the countdown leaves an interval that completes it again | a target at or before the page-open time, followed by one timer tick | completion runs once and no interval is started after it | not executed | Countdown.AsWrittenCompletesTwice | Countdown.InitCompletesAtMostOnce |
| js/gallery.js:115-137 | the grid tiles a sorted copy, but tile k opens index k of the unsorted `this.images` | images ["b.jpg", "a.jpg"]: tile 0 shows "a.jpg" and opens "b.jpg" | clicking a tile opens the image it shows | not executed | Gallery.TileOpensUnsortedImage | Gallery.TileInGridOrderOpensShownImage |
| js/snowfall.js:111-134 | `splice` inside `forEach` shifts the next flake into the current position, so the next flake is not visited | two flakes where the first leaves the viewport: the second keeps its old position for that frame | every flake moves once per frame and a recycled flake is replaced | not executed | Snowfall.RecycleSkipsNext | Snowfall.InPlaceMovesEveryFlake |

=== FILE: countdown.dfy ===
/** The countdown timer: splitting the remaining milliseconds into days, hours,
    minutes and seconds, the zero-padded display with its change animations,
    the "last minute" and "last ten seconds" enlargement flags, the completion
    transition, and the start/stop interval bookkeeping. */
module Countdown {
  import opened JsNumber
  import opened JsString

  /** Remaining time in whole days, hours, minutes and seconds. */
  datatype Fields = Fields(days: int, hours: int, minutes: int, seconds: int)

  function TotalSeconds(f: Fields): int
  {
    f.days * 86400 + f.hours * 3600 + f.minutes * 60 + f.seconds
  }

  /** The four number elements' text. Each starts as "00". */
  datatype Display = Display(days: string, hours: string, minutes: string, seconds: string)

  const InitialDisplay := Display("00", "00", "00", "00")

  /** The animation class a field receives on one update. */
  datatype Anim = Still | Bounce | Pulse

  datatype Report = Report(days: Anim, hours: Anim, minutes: Anim, seconds: Anim)

  /** One countdown instance. `interval` is the id held in `intervalId`;
      `live` is the set of intervals this instance has registered with the
      host and not cleared; `large` and `huge` are the container's
      `countdown-large` and `countdown-huge` classes; `completions` counts the
      runs of the completion handler and `celebrating` says whether the
      container shows the completion message. */
  datatype State = State(
    target: int,
    display: Display,
    large: bool,
    huge: bool,
    interval: Option<Handle>,
    live: set<Handle>,
    completions: nat,
    celebrating: bool)

  /** The host's interval table agrees with `intervalId`. */
  predicate TimerConsistent(s: State)
  {
    s.live == (if s.interval.Some? then {s.interval.value} else {})
  }

  /** The state right after construction, before the first update. */
  function New(target: int): (s: State)
    ensures TimerConsistent(s) && s.interval == None
    ensures s.display == InitialDisplay && s.completions == 0
  {
    State(target, InitialDisplay, false, false, None, {}, 0, false)
  }

  /** The day, hour, minute and second counts recombine into the whole
      seconds of `diff`, each below its natural bound. */
  lemma DecomposeArithmetic(diff: int)
    requires diff > 0
    ensures var d, h := diff / 86400000, (diff % 86400000) / 3600000;
            var m, sec := (diff % 3600000) / 60000, (diff % 60000) / 1000;
            && 0 <= h < 24 && 0 <= m < 60 && 0 <= sec < 60 && d >= 0
            && d * 86400 + h * 3600 + m * 60 + sec == diff / 1000
  {
    var t := diff / 1000;
    var ms := diff % 1000;
    var d := t / 86400;
    var r1 := t % 86400;
    var h := r1 / 3600;
    var r2 := r1 % 3600;
    var m := r2 / 60;
    var sec := r2 % 60;
    assert diff == 1000 * t + ms;
    assert t == 86400 * d + r1;
    assert r1 == 3600 * h + r2;
    assert r2 == 60 * m + sec;
    DivModUnique(t, 3600, 24 * d + h, r2);
    DivModUnique(t, 60, 1440 * d + 60 * h + m, sec);
    DivModUnique(diff, 86400000, d, 1000 * r1 + ms);
    DivModUnique(1000 * r1 + ms, 3600000, h, 1000 * r2 + ms);
    DivModUnique(diff, 3600000, 24 * d + h, 1000 * r2 + ms);
    DivModUnique(1000 * r2 + ms, 60000, m, 1000 * sec + ms);
    DivModUnique(diff, 60000, 1440 * d + 60 * h + m, 1000 * sec + ms);
    DivModUnique(1000 * sec + ms, 1000, sec, ms);
  }

  /** Splits a positive millisecond difference the way `updateCountdown` does
      with `Math.floor` and `%` (both operands are positive, so JavaScript's
      `%` agrees with Dafny's). */
  function Decompose(diff: int): (f: Fields)
    requires diff > 0
    ensures f.days >= 0
    ensures 0 <= f.hours < 24 && 0 <= f.minutes < 60 && 0 <= f.seconds < 60
    ensures TotalSeconds(f) == diff / 1000
  {
    DecomposeArithmetic(diff);
    Fields(diff / 86400000, (diff % 86400000) / 3600000,
           (diff % 3600000) / 60000, (diff % 60000) / 1000)
  }

  /** `formatNumber`: a leading "0" below ten, the plain decimal otherwise. */
  function FormatNumber(n: int): (r: string)
    ensures 0 <= n <= 99 ==> |r| == 2
    ensures n >= 0 ==> AllDigits(r) && ValueOf(r) == n
    ensures 0 <= n < 10 ==> r[0] == '0' && DigitValue(r[1]) == n
    ensures n >= 10 ==> r == Decimal(n)
  {
    if n < 10 then
      PaddedValue(n);
      "0" + Decimal(n)
    else
      ValueOfDigits(n);
      Decimal(n)
  }

  lemma PaddedValue(n: int)
    ensures 0 <= n < 10 ==> AllDigits("0" + Decimal(n)) && ValueOf("0" + Decimal(n)) == n
  {
    if 0 <= n < 10 {
      ValueOfDigits(n);
      ValueOfLeadingZero(Digits(n));
    }
  }

  /** `parseInt(formatNumber(n)) == n` for every non-negative `n`: the change
      detection reads back what the previous update wrote. */
  lemma FormatRoundTrip(n: int)
    requires n >= 0
    ensures ParseInt(FormatNumber(n)) == Some(n)
  {
    var r := FormatNumber(n);
    DigitRunAll(r);
    assert r[..|r|] == r;
  }

  /** The class a day, hour or minute field receives: a bounce exactly when the
      value differs from the number parsed from the text already shown. */
  function FieldAnim(shown: string, value: int): (a: Anim)
    ensures a != Pulse
    ensures |shown| > 0 && AllDigits(shown) ==> (a == Bounce <==> ValueOf(shown) != value)
    ensures ParseInt(shown) == None ==> a == Bounce
  {
    if ParseInt(shown) != Some(value) then Bounce else Still
  }

  /** `updateDisplay`: writes the four padded values and reports the
      animations. */
  function UpdateDisplay(d: Display, f: Fields): (r: (Display, Report))
    ensures r.0 == Display(FormatNumber(f.days), FormatNumber(f.hours),
                           FormatNumber(f.minutes), FormatNumber(f.seconds))
    ensures r.1.days == Bounce <==> ParseInt(d.days) != Some(f.days)
    ensures r.1.hours == Bounce <==> ParseInt(d.hours) != Some(f.hours)
    ensures r.1.minutes == Bounce <==> ParseInt(d.minutes) != Some(f.minutes)
    ensures r.1.days != Pulse && r.1.hours != Pulse && r.1.minutes != Pulse
    ensures r.1.seconds == Pulse
  {
    (Display(FormatNumber(f.days), FormatNumber(f.hours),
             FormatNumber(f.minutes), FormatNumber(f.seconds)),
     Report(FieldAnim(d.days, f.days), FieldAnim(d.hours, f.hours),
            FieldAnim(d.minutes, f.minutes), Pulse))
  }

  /** When the previous update wrote `prev`, a field bounces on the next update
      exactly when its value changed. */
  lemma BounceIffChanged(prev: Fields, next: Fields, d: Display)
    requires prev.days >= 0 && prev.hours >= 0 && prev.minutes >= 0 && prev.seconds >= 0
    requires d == UpdateDisplay(InitialDisplay, prev).0
    ensures UpdateDisplay(d, next).1.days == Bounce <==> prev.days != next.days
    ensures UpdateDisplay(d, next).1.hours == Bounce <==> prev.hours != next.hours
    ensures UpdateDisplay(d, next).1.minutes == Bounce <==> prev.minutes != next.minutes
  {
    FormatRoundTrip(prev.days);
    FormatRoundTrip(prev.hours);
    FormatRoundTrip(prev.minutes);
  }

  /** On the very first update the fields read "00", so a field bounces
      exactly when its value is not zero. */
  lemma FirstUpdateBounces(f: Fields)
    ensures UpdateDisplay(InitialDisplay, f).1.days == Bounce <==> f.days != 0
    ensures UpdateDisplay(InitialDisplay, f).1.hours == Bounce <==> f.hours != 0
    ensures UpdateDisplay(InitialDisplay, f).1.minutes == Bounce <==> f.minutes != 0
  {
    FormatRoundTrip(0);
    assert FormatNumber(0) == "00";
  }

  /** `start`: clears the interval already held, then registers `id`. */
  function Start(s: State, id: Handle): (r: State)
    requires id !in s.live
    requires TimerConsistent(s)
    ensures TimerConsistent(r)
    ensures r.interval == Some(id)
    ensures s.interval.Some? ==> s.interval.value !in r.live
    ensures r.live == {id}
    ensures r.display == s.display && r.completions == s.completions
  {
    var cleared := if s.interval.Some? then s.live - {s.interval.value} else s.live;
    s.(interval := Some(id), live := cleared + {id})
  }

  /** `stop`: clears the interval if one is held and forgets its id. */
  function Stop(s: State): (r: State)
    requires TimerConsistent(s)
    ensures TimerConsistent(r)
    ensures r.interval == None && r.live == {}
    ensures r.display == s.display && r.completions == s.completions
    ensures r.celebrating == s.celebrating
  {
    if s.interval.Some? then s.(interval := None, live := s.live - {s.interval.value}) else s
  }

  lemma StopIdempotent(s: State)
    requires TimerConsistent(s)
    ensures Stop(Stop(s)) == Stop(s)
  {
  }

  /** `showCompletedMessage`, as far as this instance's state goes: the
      container now shows the completion message. */
  function Complete(s: State): (r: State)
    ensures r.completions == s.completions + 1 && r.celebrating
  {
    s.(completions := s.completions + 1, celebrating := true)
  }

  /** `updateCountdown` at wall-clock time `now` (milliseconds). */
  function Tick(s: State, now: int): (r: (State, Report))
    requires TimerConsistent(s)
    ensures TimerConsistent(r.0)
    ensures r.0.target == s.target
    ensures r.1.seconds == Pulse
    ensures s.target - now <= 0 ==>
      && r.0.display == InitialDisplay
      && r.0.interval == None && r.0.live == {}
      && r.0.completions == s.completions + 1 && r.0.celebrating
      && r.0.large == s.large && r.0.huge == s.huge
    ensures s.target - now > 0 ==>
      && r.0.large == ((s.target - now) / 1000 <= 60)
      && r.0.huge == ((s.target - now) / 1000 <= 10)
      && r.0.interval == s.interval && r.0.completions == s.completions
      && r.0.celebrating == s.celebrating
  {
    var diff := s.target - now;
    if diff <= 0 then
      var (d, report) := UpdateDisplay(s.display, Fields(0, 0, 0, 0));
      assert FormatNumber(0) == "00";
      (Complete(Stop(s.(display := d))), report)
    else Running(s, diff)
  }

  /** The update while `diff` milliseconds are left: the four padded counts
      are shown, each reading back through `parseInt` as its count, and the
      container is enlarged in the last minute and more strongly in the last
      ten seconds. */
  function Running(s: State, diff: int): (r: (State, Report))
    requires diff > 0
    ensures var f := Decompose(diff);
            r.0.display == Display(FormatNumber(f.days), FormatNumber(f.hours),
                                   FormatNumber(f.minutes), FormatNumber(f.seconds))
    ensures r.0.large == (diff / 1000 <= 60) && r.0.huge == (diff / 1000 <= 10)
    ensures r.0 == s.(display := r.0.display, large := r.0.large, huge := r.0.huge)
    ensures var f := Decompose(diff);
            && ParseInt(r.0.display.days) == Some(f.days) && ParseInt(r.0.display.hours) == Some(f.hours)
            && ParseInt(r.0.display.minutes) == Some(f.minutes)
            && ParseInt(r.0.display.seconds) == Some(f.seconds)
    ensures r.1.seconds == Pulse
  {
    var f := Decompose(diff);
    var total := TotalSeconds(f);
    var u := UpdateDisplay(s.display, f);
    DisplayReadsBack(u.0, f);
    (s.(display := u.0, large := total <= 60, huge := total <= 10), u.1)
  }

  /** Each field of the display written for `f` reads back as that count. */
  lemma DisplayReadsBack(d: Display, f: Fields)
    requires f.days >= 0 && f.hours >= 0 && f.minutes >= 0 && f.seconds >= 0
    requires d == Display(FormatNumber(f.days), FormatNumber(f.hours),
                          FormatNumber(f.minutes), FormatNumber(f.seconds))
    ensures && ParseInt(d.days) == Some(f.days) && ParseInt(d.hours) == Some(f.hours)
            && ParseInt(d.minutes) == Some(f.minutes) && ParseInt(d.seconds) == Some(f.seconds)
  {
    FormatRoundTrip(f.days);
    FormatRoundTrip(f.hours);
    FormatRoundTrip(f.minutes);
    FormatRoundTrip(f.seconds);
  }

  /** For a target 3661000 ms away the display reads 00, 01, 01, 01. */
  lemma ExampleOneHourOneMinuteOneSecond(s: State, now: int)
    requires TimerConsistent(s) && s.target == now + 3661000
    ensures Tick(s, now).0.display == Display("00", "01", "01", "01")
  {
    OneHourOneMinuteOneSecondFields();
  }

  lemma OneHourOneMinuteOneSecondFields()
    ensures Decompose(3661000) == Fields(0, 1, 1, 1)
    ensures FormatNumber(0) == "00" && FormatNumber(1) == "01"
  {
    assert Decompose(3661000) == Fields(0, 1, 1, 1);
    assert FormatNumber(0) == "00";
    assert FormatNumber(1) == "01";
  }

  /** A timer callback: it only runs while an interval is registered. */
  function TimerTick(s: State, now: int): (r: State)
    requires TimerConsistent(s)
    ensures TimerConsistent(r)
    ensures s.interval == None ==> r == s
    ensures r.completions <= s.completions + 1
  {
    if s.interval.Some? then Tick(s, now).0 else s
  }

  /** Delivers one timer callback per entry of `nows`. */
  function Run(s: State, nows: seq<int>): (r: State)
    requires TimerConsistent(s)
    ensures TimerConsistent(r)
    decreases |nows|
  {
    if nows == [] then s else Run(TimerTick(s, nows[0]), nows[1..])
  }

  /** The constructor's `init()` as written: one immediate update, then
      `start()` unconditionally. */
  function InitAsWritten(target: int, now: int, id: Handle): (r: State)
    ensures TimerConsistent(r) && r.interval == Some(id)
  {
    Start(Tick(New(target), now).0, id)
  }

  /** A page opened after the target runs the completion handler twice: once
      in `init()` and again on the first interval tick. */
  lemma AsWrittenCompletesTwice(target: int, now0: int, now1: int, id: Handle)
    requires target <= now0 <= now1
    ensures Run(InitAsWritten(target, now0, id), [now1]).completions == 2
  {
    var s := InitAsWritten(target, now0, id);
    assert s.completions == 1;
    assert Run(s, [now1]) == Run(TimerTick(s, now1), []);
  }

  /** `init()` as evidently intended: the interval is only started when the
      first update did not already complete the countdown. */
  function Init(target: int, now: int, id: Handle): (r: State)
    ensures TimerConsistent(r)
    ensures r.completions <= 1
    ensures r.completions == 1 <==> target - now <= 0
    ensures r.interval.Some? <==> target - now > 0
  {
    var s := Tick(New(target), now).0;
    if s.completions == 0 then Start(s, id) else s
  }

  /** When the page opens before the target, `init()` as written is the
      corrected start-up; it differs exactly when the first update already
      completed the countdown. */
  lemma InitAsWrittenAgrees(target: int, now: int, id: Handle)
    ensures InitAsWritten(target, now, id) == Init(target, now, id) <==> target - now > 0
  {
    if target - now <= 0 {
      assert Init(target, now, id).interval == None;
    }
  }

  /** In its normal case, a page opened before the target, `init()` as written
      keeps the promise: no sequence of ticks completes twice. */
  lemma AsWrittenCompletesAtMostOnce(target: int, now: int, id: Handle, nows: seq<int>)
    requires target - now > 0
    ensures Run(InitAsWritten(target, now, id), nows).completions <= 1
  {
    InitAsWrittenAgrees(target, now, id);
    InitCompletesAtMostOnce(target, now, id, nows);
  }

  /** Completion has run at most once, and never while a timer is live. */
  predicate CompletesOnce(s: State)
  {
    TimerConsistent(s) && s.completions <= 1 && (s.completions == 1 ==> s.interval == None)
  }

  /** With the corrected `init()`, no sequence of timer callbacks runs the
      completion handler more than once. */
  lemma {:induction false} InitCompletesAtMostOnce(target: int, now: int, id: Handle, nows: seq<int>)
    ensures Run(Init(target, now, id), nows).completions <= 1
  {
    RunKeepsCompletesOnce(Init(target, now, id), nows);
  }

  lemma {:induction false} RunKeepsCompletesOnce(s: State, nows: seq<int>)
    requires CompletesOnce(s)
    ensures CompletesOnce(Run(s, nows))
    decreases |nows|
  {
    if nows != [] {
      var t := TimerTick(s, nows[0]);
      assert CompletesOnce(t);
      RunKeepsCompletesOnce(t, nows[1..]);
    }
  }
}

=== FILE: fireworks.dfy ===
/** The fireworks animation's two collections: projectiles in flight and
    explosion particles. Launching appends a projectile that covers the
    distance to its target in 60 frames; each frame trims the particle list
    to its last 1500 entries, moves every projectile (exploding and removing
    those within 5 px of their target), then ages every particle and drops
    the dead ones. Positions are exact reals; the trigonometric velocity of an
    explosion particle and every `Math.random()` value arrive as parameters. */
module Fireworks {
  import opened JsNumber

  const ParticleCap := 1500
  const FramesToTarget: real := 60.0
  const ArrivalRadius: real := 5.0

  datatype Rgb = Rgb(r: real, g: real, b: real)

  /** `color[k]` for k in 0..2. */
  function Component(c: Rgb, k: nat): real
    requires k < 3
  {
    if k == 0 then c.r else if k == 1 then c.g else c.b
  }

  datatype Projectile = Projectile(
    x: real, y: real, targetX: real, targetY: real,
    dx: real, dy: real, color: Rgb, isManual: bool)

  datatype Particle = Particle(
    x: real, y: real, dx: real, dy: real, color: Rgb,
    life: real, maxLife: real, gravity: real, size: real,
    sparkle: bool, trail: bool)

  /** The `fireworks` configuration section. A value of 0 stands for a missing
      or zero entry, which `||` replaces by the default. */
  datatype Config = Config(particleCount: nat, particleLifetime: real, manualBrightness: real)

  /** The values of `config.js`. */
  const PageConfig := Config(100, 60.0, 2.0)

  function OrNat(v: nat, default: nat): nat { if v == 0 then default else v }
  function OrReal(v: real, default: real): real { if v == 0.0 then default else v }

  /** The random and trigonometric inputs of one explosion particle: its
      velocity `cos(angle) * speed`, `sin(angle) * speed`, and the
      `Math.random()` values behind its colour jitter, type, lifetimes,
      gravity and size. */
  datatype ParticleDraw = ParticleDraw(
    dx: real, dy: real,
    jitter0: Unit, jitter1: Unit, jitter2: Unit,
    kind: Unit, life: Unit, maxLife: Unit, gravity: Unit, size: Unit)

  /** Random inputs of one frame: `draws(i)(k)` feeds particle `k` of the
      explosion of the projectile at index `i`. */
  type Draws = nat -> nat -> ParticleDraw

  /** `animating` says whether a frame callback is still scheduled;
      `autoLaunch` is the automatic launch interval. */
  datatype State = State(
    fireworks: seq<Projectile>,
    particles: seq<Particle>,
    animationId: Option<Handle>,
    animating: bool,
    autoLaunch: Option<Handle>)

  // ---------------------------------------------------------------------------
  // Launch and flight.

  /** `launchFirework(x, y, targetX, targetY, isManual)` with the colour
      `getRandomColor` picked. */
  function Launch(s: State, x: real, y: real, targetX: real, targetY: real,
                  color: Rgb, isManual: bool): (r: State)
    ensures |r.fireworks| == |s.fireworks| + 1
    ensures r.fireworks[..|s.fireworks|] == s.fireworks
    ensures var p := r.fireworks[|s.fireworks|];
            p.x == x && p.y == y && p.targetX == targetX && p.targetY == targetY
            && p.dx * FramesToTarget == targetX - x && p.dy * FramesToTarget == targetY - y
            && p.color == color && p.isManual == isManual
    ensures r.particles == s.particles
  {
    var p := Projectile(x, y, targetX, targetY, (targetX - x) / FramesToTarget,
                        (targetY - y) / FramesToTarget, color, isManual);
    s.(fireworks := s.fireworks + [p])
  }

  /** `getRandomColor`: `colors[floor(r * colors.length)]` from the configured
      palette, or white when none is configured. An empty configured palette
      is truthy, so it yields `undefined`. */
  function PickColor(colors: Option<seq<Rgb>>, r: Unit): (c: Option<Rgb>)
    ensures colors == None ==> c == Some(Rgb(255.0, 255.0, 255.0))
    ensures colors.Some? ==> (c.Some? <==> |colors.value| > 0)
    ensures colors.Some? && c.Some? ==> c.value in colors.value
  {
    var palette := if colors.Some? then colors.value else [Rgb(255.0, 255.0, 255.0)];
    var k := RandomPosition(r, |palette|);
    if 0 <= k < |palette| then Some(palette[k]) else None
  }

  /** `onClick`: a manual launch from the bottom centre of a canvas of the
      given size towards the click point. */
  function OnClick(s: State, width: real, height: real, clickX: real, clickY: real,
                   color: Rgb): (r: State)
    ensures |r.fireworks| == |s.fireworks| + 1 && r.fireworks[..|s.fireworks|] == s.fireworks
    ensures var p := r.fireworks[|s.fireworks|];
            p.isManual && p.x * 2.0 == width && p.y == height
            && p.targetX == clickX && p.targetY == clickY
  {
    Launch(s, width / 2.0, height, clickX, clickY, color, true)
  }

  /** One frame of flight: the position advances by the velocity; target,
      velocity, colour and origin of the launch are kept. */
  function Move(p: Projectile): (q: Projectile)
    ensures q.x == p.x + p.dx && q.y == p.y + p.dy
    ensures q.targetX == p.targetX && q.targetY == p.targetY
    ensures q.dx == p.dx && q.dy == p.dy && q.color == p.color && q.isManual == p.isManual
  {
    p.(x := p.x + p.dx, y := p.y + p.dy)
  }

  /** `Math.sqrt(dx * dx + dy * dy) < 5`, squared on both sides. */
  predicate Arrived(p: Projectile): (b: bool)
    ensures b ==> -ArrivalRadius < p.targetX - p.x < ArrivalRadius
                  && -ArrivalRadius < p.targetY - p.y < ArrivalRadius
    ensures p.x == p.targetX && p.y == p.targetY ==> b
  {
    SquareBelow(p.targetX - p.x, (p.targetY - p.y) * (p.targetY - p.y));
    SquareBelow(p.targetY - p.y, (p.targetX - p.x) * (p.targetX - p.x));

    (p.targetX - p.x) * (p.targetX - p.x) + (p.targetY - p.y) * (p.targetY - p.y)
      < ArrivalRadius * ArrivalRadius
  }

  /** A coordinate whose square stays below 25 with anything non-negative
      added lies strictly between -5 and 5. */
  lemma SquareBelow(d: real, other: real)
    requires other >= 0.0
    ensures d * d + other < ArrivalRadius * ArrivalRadius ==> -ArrivalRadius < d < ArrivalRadius
  {
    if d >= ArrivalRadius {
      assert d * d >= ArrivalRadius * d >= ArrivalRadius * ArrivalRadius;
    } else if d <= -ArrivalRadius {
      assert d * d >= -ArrivalRadius * d >= ArrivalRadius * ArrivalRadius;
    }
  }

  function MoveN(p: Projectile, k: nat): (q: Projectile)
  {
    if k == 0 then p else Move(MoveN(p, k - 1))
  }

  lemma {:induction false} MoveNPosition(p: Projectile, k: nat)
    ensures MoveN(p, k).x == p.x + (k as real) * p.dx
    ensures MoveN(p, k).y == p.y + (k as real) * p.dy
    ensures MoveN(p, k).targetX == p.targetX && MoveN(p, k).targetY == p.targetY
    ensures MoveN(p, k).dx == p.dx && MoveN(p, k).dy == p.dy
  {
    if k > 0 {
      MoveNPosition(p, k - 1);
    }
  }

  /** With exact arithmetic a launched projectile sits exactly on its target
      after 60 moves, so the distance test has fired by frame 60. */
  lemma ArrivesWithinSixtyFrames(s: State, x: real, y: real, tx: real, ty: real,
                                 color: Rgb, isManual: bool)
    ensures var p := Launch(s, x, y, tx, ty, color, isManual).fireworks[|s.fireworks|];
            MoveN(p, 60).x == tx && MoveN(p, 60).y == ty && Arrived(MoveN(p, 60))
  {
    var p := Launch(s, x, y, tx, ty, color, isManual).fireworks[|s.fireworks|];
    MoveNPosition(p, 60);
  }

  /** A launch from (100, 500) to (300, 200) moves by (200/60, -300/60) per
      frame. */
  lemma LaunchExample(s: State, color: Rgb)
    ensures var p := Launch(s, 100.0, 500.0, 300.0, 200.0, color, false).fireworks[|s.fireworks|];
            p.dx == 10.0 / 3.0 && p.dy == -5.0
  {
  }

  // ---------------------------------------------------------------------------
  // Explosions.

  function Clamp(v: real): (c: real)
    ensures 0.0 <= c <= 255.0
    ensures 0.0 <= v <= 255.0 ==> c == v
    ensures v < 0.0 ==> c == 0.0
    ensures v > 255.0 ==> c == 255.0
  {
    if v < 0.0 then 0.0 else if v > 255.0 then 255.0 else v
  }

  /** `colorVariation()` for particle `i`: every component starts from the
      same base `color[i % 3] * brightness`. */
  function Jitter(color: Rgb, i: nat, brightness: real, r: Unit): (c: real)
    ensures 0.0 <= c <= 255.0
  {
    Clamp(Component(color, i % 3) * brightness + (r - 0.5) * 100.0)
  }

  /** `config.particleCount || 150` for a click, `|| 120` otherwise. */
  function ParticleCount(cfg: Config, isManual: bool): (n: nat)
    ensures n > 0
    ensures cfg.particleCount > 0 ==> n == cfg.particleCount
    ensures cfg.particleCount == 0 ==> n == if isManual then 150 else 120
  {
    if isManual then OrNat(cfg.particleCount, 150) else OrNat(cfg.particleCount, 120)
  }

  /** `config.particleLifetime || 70`: a configured 0 is falsy and replaced
      by the default, so a particle's base lifetime is never 0. */
  function Lifetime(cfg: Config): (l: real)
    ensures l != 0.0
    ensures cfg.particleLifetime != 0.0 ==> l == cfg.particleLifetime
    ensures cfg.particleLifetime == 0.0 ==> l > 0.0
  {
    OrReal(cfg.particleLifetime, 70.0)
  }

  /** Particle `i` of an explosion at (x, y). */
  function MakeParticle(x: real, y: real, color: Rgb, i: nat, isManual: bool,
                        cfg: Config, d: ParticleDraw): (p: Particle)
    ensures p.x == x && p.y == y && p.dx == d.dx && p.dy == d.dy
    ensures 0.0 <= p.color.r <= 255.0 && 0.0 <= p.color.g <= 255.0 && 0.0 <= p.color.b <= 255.0
    ensures Lifetime(cfg) <= p.life < Lifetime(cfg) + 30.0
    ensures Lifetime(cfg) <= p.maxLife < Lifetime(cfg) + 30.0
    ensures 0.01 <= p.gravity < 0.05
    ensures p.sparkle ==> 2.0 <= p.size < 5.0
    ensures !p.sparkle ==> 1.0 <= p.size < 3.5
    ensures !(p.sparkle && p.trail)
  {
    var brightness := if isManual then OrReal(cfg.manualBrightness, 2.0) else 1.0;
    var kind := RandomPosition(d.kind, 3);
    var sparkle := kind == 1;
    Particle(x, y, d.dx, d.dy,
             Rgb(Jitter(color, i, brightness, d.jitter0), Jitter(color, i, brightness, d.jitter1),
                 Jitter(color, i, brightness, d.jitter2)),
             Lifetime(cfg) + d.life * 30.0, Lifetime(cfg) + d.maxLife * 30.0,
             0.01 + d.gravity * 0.04,
             if sparkle then 2.0 + d.size * 3.0 else 1.0 + d.size * 2.5,
             sparkle, kind == 2)
  }

  /** `explode(x, y, color, isManual)`: the particles it appends, in order. */
  function Explode(x: real, y: real, color: Rgb, isManual: bool, cfg: Config,
                   draw: nat -> ParticleDraw): (ps: seq<Particle>)
    ensures |ps| == ParticleCount(cfg, isManual)
    ensures forall k :: 0 <= k < |ps| ==> ps[k] == MakeParticle(x, y, color, k, isManual, cfg, draw(k))
  {
    seq(ParticleCount(cfg, isManual), k requires k >= 0 => MakeParticle(x, y, color, k, isManual, cfg, draw(k)))
  }

  /** With the page's configuration every explosion has 100 particles; without
      one, 150 for a click and 120 for an automatic launch. */
  lemma ExplosionSizes()
    ensures ParticleCount(PageConfig, true) == 100 && ParticleCount(PageConfig, false) == 100
    ensures ParticleCount(Config(0, 0.0, 0.0), true) == 150
    ensures ParticleCount(Config(0, 0.0, 0.0), false) == 120
  {
  }

  // ---------------------------------------------------------------------------
  // The per-frame passes, as reference definitions.

  /** The projectiles still in flight after one `updateFireworks` pass, in
      their original order. */
  function Kept(fs: seq<Projectile>): (r: seq<Projectile>)
    ensures |r| <= |fs|
    ensures forall k :: 0 <= k < |r| ==> !Arrived(r[k])
  {
    if fs == [] then []
    else (if Arrived(Move(fs[0])) then [] else [Move(fs[0])]) + Kept(fs[1..])
  }

  /** The explosion (possibly empty) of the projectile at index `i`. */
  function BurstAt(fs: seq<Projectile>, i: nat, cfg: Config, draws: Draws): (r: seq<Particle>)
    requires i < |fs|
    ensures |r| > 0 <==> Arrived(Move(fs[i]))
    ensures |r| > 0 ==> |r| == ParticleCount(cfg, fs[i].isManual)
  {
    var f := Move(fs[i]);
    if Arrived(f) then Explode(f.x, f.y, f.color, f.isManual, cfg, draws(i)) else []
  }

  /** The particles appended while the pass visits indices |fs|-1 down to
      `lo`: the last projectile's explosion comes first. */
  function Bursts(fs: seq<Projectile>, lo: nat, cfg: Config, draws: Draws): (r: seq<Particle>)
    requires lo <= |fs|
    decreases |fs| - lo
  {
    if lo == |fs| then [] else Bursts(fs, lo + 1, cfg, draws) + BurstAt(fs, lo, cfg, draws)
  }

  /** A pass in which no projectile arrives creates no particles. */
  lemma {:induction false} BurstsNoneArrive(fs: seq<Projectile>, lo: nat, cfg: Config, draws: Draws)
    requires lo <= |fs|
    requires forall k :: lo <= k < |fs| ==> !Arrived(Move(fs[k]))
    ensures Bursts(fs, lo, cfg, draws) == []
    decreases |fs| - lo
  {
    if lo < |fs| {
      BurstsNoneArrive(fs, lo + 1, cfg, draws);
    }
  }

  /** A projectile that arrives always leaves particles behind: the pass
      produces some exactly when some projectile arrives. */
  lemma {:induction false} BurstsNonEmpty(fs: seq<Projectile>, lo: nat, cfg: Config, draws: Draws, k: nat)
    requires lo <= k < |fs| && Arrived(Move(fs[k]))
    ensures |Bursts(fs, lo, cfg, draws)| >= ParticleCount(cfg, fs[k].isManual)
    decreases |fs| - lo
  {
    assert Bursts(fs, lo, cfg, draws) == Bursts(fs, lo + 1, cfg, draws) + BurstAt(fs, lo, cfg, draws);
    if lo < k {
      BurstsNonEmpty(fs, lo + 1, cfg, draws, k);
    } else {
      assert Move(fs[k]).isManual == fs[k].isManual;
      assert |BurstAt(fs, k, cfg, draws)| == ParticleCount(cfg, fs[k].isManual);
    }
  }

  /** One frame's ageing of a particle. */
  function Decay(p: Particle): (q: Particle)
    ensures q.life == p.life - 1.0
    ensures q.maxLife == p.maxLife && q.size == p.size && q.color == p.color
  {
    p.(x := p.x + p.dx, y := p.y + p.dy, dy := p.dy + p.gravity, life := p.life - 1.0)
  }

  /** The particles after one `updateParticles` pass: every one aged, the
      ones whose life dropped to 0 or below removed, order kept. */
  function Survivors(ps: seq<Particle>): (r: seq<Particle>)
    ensures |r| <= |ps|
    ensures forall k :: 0 <= k < |r| ==> r[k].life > 0.0
  {
    if ps == [] then []
    else (if Decay(ps[0]).life > 0.0 then [Decay(ps[0])] else []) + Survivors(ps[1..])
  }

  lemma {:induction false} SurvivorsAppend(a: seq<Particle>, b: seq<Particle>)
    ensures Survivors(a + b) == Survivors(a) + Survivors(b)
    decreases |a|
  {
    if a == [] {
      assert a + b == b;
    } else {
      assert (a + b)[0] == a[0];
      assert (a + b)[1..] == a[1..] + b;
      SurvivorsAppend(a[1..], b);
    }
  }

  /** A particle survives the pass exactly when its aged copy still has life
      left: the pass keeps those and nothing else. */
  lemma {:induction false} SurvivorsMembership(ps: seq<Particle>, q: Particle)
    ensures q in Survivors(ps) <==>
            exists k :: 0 <= k < |ps| && Decay(ps[k]) == q && q.life > 0.0
    decreases |ps|
  {
    if ps != [] {
      SurvivorsMembership(ps[1..], q);
      if exists k :: 0 <= k < |ps| && Decay(ps[k]) == q && q.life > 0.0 {
        var k :| 0 <= k < |ps| && Decay(ps[k]) == q && q.life > 0.0;
        if k > 0 {
          assert ps[1..][k - 1] == ps[k];
        }
      }
      if exists k :: 0 <= k < |ps[1..]| && Decay(ps[1..][k]) == q && q.life > 0.0 {
        var k :| 0 <= k < |ps[1..]| && Decay(ps[1..][k]) == q && q.life > 0.0;
        assert ps[k + 1] == ps[1..][k];
      }
    }
  }

  /** The pass keeps exactly the moved copies of the projectiles that have not
      arrived: none is dropped and nothing else appears. */
  lemma {:induction false} KeptMembership(fs: seq<Projectile>, q: Projectile)
    ensures q in Kept(fs) <==>
            exists k :: 0 <= k < |fs| && Move(fs[k]) == q && !Arrived(q)
    decreases |fs|
  {
    if fs != [] {
      KeptMembership(fs[1..], q);
      if exists k :: 0 <= k < |fs| && Move(fs[k]) == q && !Arrived(q) {
        var k :| 0 <= k < |fs| && Move(fs[k]) == q && !Arrived(q);
        if k > 0 {
          assert fs[1..][k - 1] == fs[k];
        }
      }
      if exists k :: 0 <= k < |fs[1..]| && Move(fs[1..][k]) == q && !Arrived(q) {
        var k :| 0 <= k < |fs[1..]| && Move(fs[1..][k]) == q && !Arrived(q);
        assert fs[k + 1] == fs[1..][k];
      }
    }
  }

  /** The projectile pass distributes over concatenation, so projectiles in
      flight keep their relative order. */
  lemma {:induction false} KeptAppend(a: seq<Projectile>, b: seq<Projectile>)
    ensures Kept(a + b) == Kept(a) + Kept(b)
    decreases |a|
  {
    if a == [] {
      assert a + b == b;
    } else {
      assert (a + b)[0] == a[0];
      assert (a + b)[1..] == a[1..] + b;
      KeptAppend(a[1..], b);
    }
  }

  /** Projectiles that do not arrive this frame are all kept, moved, in their
      original order. */
  lemma {:induction false} NoneArriveAllKept(fs: seq<Projectile>)
    requires forall k :: 0 <= k < |fs| ==> !Arrived(Move(fs[k]))
    ensures Kept(fs) == seq(|fs|, k requires 0 <= k < |fs| => Move(fs[k]))
    decreases |fs|
  {
    if fs != [] {
      NoneArriveAllKept(fs[1..]);
    }
  }

  /** When every particle outlives the frame, none is removed. */
  lemma {:induction false} AllSurvive(ps: seq<Particle>)
    requires forall k :: 0 <= k < |ps| ==> ps[k].life > 1.0
    ensures |Survivors(ps)| == |ps|
    decreases |ps|
  {
    if ps != [] {
      AllSurvive(ps[1..]);
    }
  }

  /** The trim at the start of a frame: `particles.slice(-1500)` when there are
      more than 1500. */
  function Trim(ps: seq<Particle>): (r: seq<Particle>)
    ensures |r| <= ParticleCap
    ensures |ps| <= ParticleCap ==> r == ps
    ensures |ps| > ParticleCap ==> |r| == ParticleCap && ps == ps[..|ps| - ParticleCap] + r
  {
    if |ps| > ParticleCap then ps[|ps| - ParticleCap..] else ps
  }

  /** One animation frame: trim, `updateFireworks`, `updateParticles`, then
      the next frame is requested and its handle `id` stored. The particles
      born this frame are aged in the same frame. */
  function Frame(s: State, cfg: Config, draws: Draws, id: Handle): (r: State)
    ensures |r.fireworks| <= |s.fireworks|
    ensures forall k :: 0 <= k < |r.fireworks| ==> !Arrived(r.fireworks[k])
    ensures forall k :: 0 <= k < |r.particles| ==> r.particles[k].life > 0.0
    ensures r.animationId == Some(id) && r.animating
    ensures r.autoLaunch == s.autoLaunch
  {
    s.(fireworks := Kept(s.fireworks),
       particles := Survivors(Trim(s.particles) + Bursts(s.fireworks, 0, cfg, draws)),
       animationId := Some(id), animating := true)
  }

  // ---------------------------------------------------------------------------
  // The passes as the source runs them: backwards, splicing in place.

  /** Removing or replacing the element after a prefix. */
  lemma SpliceAt<T>(pre: seq<T>, x: T, y: T, rest: seq<T>, cur: seq<T>)
    requires cur == pre + [x] + rest
    ensures cur[|pre|] == x
    ensures cur[..|pre|] + cur[|pre| + 1..] == pre + rest
    ensures cur[|pre| := y] == pre + ([y] + rest)
  {
    assert cur[..|pre|] == pre;
    assert cur[|pre| + 1..] == rest;
  }

  lemma KeptStep(fs: seq<Projectile>, i: nat)
    requires i < |fs|
    ensures Kept(fs[i..]) == (if Arrived(Move(fs[i])) then [] else [Move(fs[i])]) + Kept(fs[i + 1..])
  {
    assert fs[i..][0] == fs[i];
    assert fs[i..][1..] == fs[i + 1..];
  }

  /** One step of the backward pass over the projectiles keeps the loop's
      picture: untouched prefix, processed suffix. */
  lemma FireworkStep(fs: seq<Projectile>, cur: seq<Projectile>, i: nat)
    requires i < |fs| && cur == fs[..i + 1] + Kept(fs[i + 1..])
    ensures cur[i] == fs[i]
    ensures Arrived(Move(fs[i])) ==> cur[..i] + cur[i + 1..] == fs[..i] + Kept(fs[i..])
    ensures !Arrived(Move(fs[i])) ==> cur[i := Move(fs[i])] == fs[..i] + Kept(fs[i..])
  {
    KeptStep(fs, i);
    var m := Move(fs[i]);
    assert fs[..i + 1] == fs[..i] + [fs[i]];
    SpliceAt(fs[..i], fs[i], m, Kept(fs[i + 1..]), cur);
    if Arrived(m) {
      assert Kept(fs[i..]) == Kept(fs[i + 1..]);
    } else {
      assert Kept(fs[i..]) == [m] + Kept(fs[i + 1..]);
    }
  }

  /** One step of the backward pass over the projectiles keeps the loop's
      particle invariant: an arrival appends its explosion, nothing else
      appends anything. */
  lemma BurstStep(fs: seq<Projectile>, ps: seq<Particle>, i: nat, cfg: Config, draws: Draws)
    requires i < |fs|
    ensures var f := Move(fs[i]);
            Arrived(f) ==> ps + Bursts(fs, i, cfg, draws)
                           == ps + Bursts(fs, i + 1, cfg, draws)
                              + Explode(f.x, f.y, f.color, f.isManual, cfg, draws(i))
    ensures !Arrived(Move(fs[i])) ==> Bursts(fs, i, cfg, draws) == Bursts(fs, i + 1, cfg, draws)
  {
    var f := Move(fs[i]);
    assert Bursts(fs, i, cfg, draws) == Bursts(fs, i + 1, cfg, draws) + BurstAt(fs, i, cfg, draws);
  }

  /** `updateFireworks`: walks the array from the end, moving each projectile
      and splicing out the ones that explode. */
  method UpdateFireworks(fs: seq<Projectile>, ps: seq<Particle>, cfg: Config, draws: Draws)
    returns (fs': seq<Projectile>, ps': seq<Particle>)
    ensures fs' == Kept(fs)
    ensures ps' == ps + Bursts(fs, 0, cfg, draws)
  {
    fs' := fs;
    ps' := ps;
    var i := |fs| - 1;
    while i >= 0
      invariant -1 <= i < |fs|
      invariant fs' == fs[..i + 1] + Kept(fs[i + 1..])
      invariant ps' == ps + Bursts(fs, i + 1, cfg, draws)
    {
      FireworkStep(fs, fs', i);
      var f := Move(fs'[i]);
      BurstStep(fs, ps, i, cfg, draws);
      if Arrived(f) {
        ps' := ps' + Explode(f.x, f.y, f.color, f.isManual, cfg, draws(i));
        fs' := fs'[..i] + fs'[i + 1..];
      } else {
        fs' := fs'[i := f];
      }
      i := i - 1;
    }
    assert fs[0..] == fs;
  }

  lemma SurvivorsStep(ps: seq<Particle>, i: nat)
    requires i < |ps|
    ensures Survivors(ps[i..]) == (if Decay(ps[i]).life > 0.0 then [Decay(ps[i])] else [])
                                  + Survivors(ps[i + 1..])
  {
    assert ps[i..][0] == ps[i];
    assert ps[i..][1..] == ps[i + 1..];
  }

  /** One step of the backward pass over the particles keeps the loop's
      picture: untouched prefix, processed suffix. */
  lemma ParticleStep(ps: seq<Particle>, cur: seq<Particle>, i: nat)
    requires i < |ps| && cur == ps[..i + 1] + Survivors(ps[i + 1..])
    ensures cur[i] == ps[i]
    ensures Decay(ps[i]).life <= 0.0 ==> cur[..i] + cur[i + 1..] == ps[..i] + Survivors(ps[i..])
    ensures Decay(ps[i]).life > 0.0 ==> cur[i := Decay(ps[i])] == ps[..i] + Survivors(ps[i..])
  {
    SurvivorsStep(ps, i);
    var d := Decay(ps[i]);
    assert ps[..i + 1] == ps[..i] + [ps[i]];
    SpliceAt(ps[..i], ps[i], d, Survivors(ps[i + 1..]), cur);
    if d.life > 0.0 {
      assert Survivors(ps[i..]) == [d] + Survivors(ps[i + 1..]);
    } else {
      assert Survivors(ps[i..]) == Survivors(ps[i + 1..]);
    }
  }

  /** `updateParticles`: walks the array from the end, ageing each particle
      and splicing out the dead ones. */
  method UpdateParticles(ps: seq<Particle>) returns (r: seq<Particle>)
    ensures r == Survivors(ps)
  {
    r := ps;
    var i := |ps| - 1;
    while i >= 0
      invariant -1 <= i < |ps|
      invariant r == ps[..i + 1] + Survivors(ps[i + 1..])
    {
      ParticleStep(ps, r, i);
      var p := Decay(r[i]);
      if p.life <= 0.0 {
        r := r[..i] + r[i + 1..];
      } else {
        r := r[i := p];
      }
      i := i - 1;
    }
    assert ps[0..] == ps;
  }

  /** The frame callback as the source runs it. */
  method AnimateFrame(s: State, cfg: Config, draws: Draws, id: Handle) returns (r: State)
    ensures r == Frame(s, cfg, draws, id)
    ensures |r.particles| <= ParticleCap + |Bursts(s.fireworks, 0, cfg, draws)|
  {
    var ps := Trim(s.particles);
    var fs, ps' := UpdateFireworks(s.fireworks, ps, cfg, draws);
    var survivors := UpdateParticles(ps');
    r := s.(fireworks := fs, particles := survivors, animationId := Some(id), animating := true);
  }

  /** Every particle an explosion appends starts with at least the configured
      lifetime. */
  lemma {:induction false} BurstLives(fs: seq<Projectile>, lo: nat, cfg: Config, draws: Draws)
    requires lo <= |fs|
    ensures forall k :: 0 <= k < |Bursts(fs, lo, cfg, draws)| ==>
              Bursts(fs, lo, cfg, draws)[k].life >= Lifetime(cfg)
    decreases |fs| - lo
  {
    if lo < |fs| {
      BurstLives(fs, lo + 1, cfg, draws);
    }
  }

  /** The cap holds only right after the trim: 1500 long-lived particles and
      one projectile exploding on this frame leave 1600 particles. */
  lemma CapExceededAfterExplosion(s: State, target: Projectile, draws: Draws, id: Handle)
    requires |s.particles| == 1500
    requires forall k :: 0 <= k < 1500 ==> s.particles[k].life > 1.0
    requires target.x == target.targetX && target.y == target.targetY
    requires target.dx == 0.0 && target.dy == 0.0
    requires s.fireworks == [target]
    ensures |Frame(s, PageConfig, draws, id).particles| == 1600
  {
    var burst := Bursts(s.fireworks, 0, PageConfig, draws);
    assert Arrived(Move(target));
    assert Bursts(s.fireworks, 1, PageConfig, draws) == [];
    assert burst == BurstAt(s.fireworks, 0, PageConfig, draws);
    assert |burst| == 100;
    BurstLives(s.fireworks, 0, PageConfig, draws);
    SurvivorsAppend(Trim(s.particles), burst);
    AllSurvive(Trim(s.particles));
    AllSurvive(burst);
  }

  // ---------------------------------------------------------------------------
  // Drawn size and opacity.

  function Alpha(p: Particle): real
    requires p.maxLife > 0.0
  {
    p.life / p.maxLife
  }

  /** The opacity is positive exactly while the particle has life left. */
  lemma AlphaSign(p: Particle)
    requires p.maxLife > 0.0
    ensures Alpha(p) > 0.0 <==> p.life > 0.0
    ensures p.size > 0.0 ==> (p.size * Alpha(p) > 0.0 <==> p.life > 0.0)
  {
  }

  /** `Math.max(0, particle.size * alpha)`, computed after the decrement. */
  function DrawnSize(p: Particle): (r: real)
    requires p.maxLife > 0.0
    ensures r >= 0.0
    ensures p.size > 0.0 ==> (r > 0.0 <==> p.life > 0.0)
  {
    var v := p.size * Alpha(p);
    AlphaSign(p);
    if v > 0.0 then v else 0.0
  }

  /** The drawn size never grows from one frame to the next. */
  lemma SizeNonIncreasing(p: Particle)
    requires p.maxLife > 0.0 && p.size >= 0.0
    ensures DrawnSize(Decay(p)) <= DrawnSize(p)
  {
    var q := Decay(p);
    assert Alpha(q) == Alpha(p) - 1.0 / p.maxLife;
    assert p.size * Alpha(q) <= p.size * Alpha(p);
  }

  /** `life` and `maxLife` are drawn independently, so the opacity can start
      above 1: life 87 against maxLife 60 reads 86/60 after the first frame. */
  lemma AlphaCanExceedOne(d: ParticleDraw, color: Rgb)
    requires d.life == 0.9 && d.maxLife == 0.0
    ensures var p := Decay(MakeParticle(0.0, 0.0, color, 0, false, PageConfig, d));
            Alpha(p) > 1.0
  {
  }

  // ---------------------------------------------------------------------------
  // Teardown.

  /** `destroy`: cancels the pending frame and empties both collections. The
      automatic launch interval is not cleared, so projectiles keep being
      added after it. */
  function Destroy(s: State): (r: State)
    ensures r.fireworks == [] && r.particles == []
    ensures r.autoLaunch == s.autoLaunch
    ensures s.animationId.Some? ==> !r.animating
    ensures s.animationId == None ==> r.animating == s.animating
  {
    s.(fireworks := [], particles := [],
       animating := if s.animationId.Some? then false else s.animating)
  }

  /** Destroying twice is destroying once, and a frame of a destroyed state
      has nothing to move or age. */
  lemma DestroyIdempotent(s: State, cfg: Config, draws: Draws, id: Handle)
    ensures Destroy(Destroy(s)) == Destroy(s)
    ensures Frame(Destroy(s), cfg, draws, id).fireworks == []
    ensures Frame(Destroy(s), cfg, draws, id).particles == []
  {
  }

  /** Once a frame has run, its request handle is held, so `destroy` cancels
      the pending frame, whatever handle the state started with. */
  lemma DestroyAfterFrameCancels(s: State, cfg: Config, draws: Draws, id: Handle)
    ensures Destroy(Frame(s, cfg, draws, id)).animationId == Some(id)
    ensures !Destroy(Frame(s, cfg, draws, id)).animating
    ensures Destroy(Frame(s, cfg, draws, id)).autoLaunch == s.autoLaunch
  {
  }

  /** Trimming an already trimmed list changes nothing. */
  lemma TrimIdempotent(ps: seq<Particle>)
    ensures Trim(Trim(ps)) == Trim(ps)
    ensures |ps| > ParticleCap ==> forall k :: 0 <= k < ParticleCap ==>
              Trim(ps)[k] == ps[|ps| - ParticleCap + k]
  {
  }

  /** The pass runs backwards, so when two projectiles explode on the same
      frame the later one's particles come first. */
  lemma BurstOrder(fs: seq<Projectile>, cfg: Config, draws: Draws)
    requires |fs| == 2
    ensures Bursts(fs, 0, cfg, draws) == BurstAt(fs, 1, cfg, draws) + BurstAt(fs, 0, cfg, draws)
  {
    assert Bursts(fs, 2, cfg, draws) == [];
  }
}

=== FILE: gallery.dfy ===
/** The photo gallery: the thumbnail grid built from a name-sorted copy of the
    image list, the fullscreen viewer with wrap-around navigation, its
    keyboard handling, and the extension filter on added images. */
module Gallery {
  import opened JsNumber
  import opened JsString

  const DefaultExtensions: seq<string> := [".jpg", ".jpeg", ".png"]

  /** The list `loadImages` installs. */
  const DefaultImages: seq<string> := [
    "gallery/1.jpg", "gallery/2.jpg", "gallery/3.jpg", "gallery/4.jpg",
    "gallery/5.jpg", "gallery/6.jpg", "gallery/7.jpg", "gallery/8.jpg",
    "gallery/9.jpg", "gallery/10.jpg", "gallery/11.jpg", "gallery/12.jpg",
    "gallery/13.jpg"]

  // ---------------------------------------------------------------------------
  // Name order: the default `Array.prototype.sort` comparison of strings.

  /** `a` sorts no later than `b` in character order. */
  predicate Leq(a: string, b: string)
    decreases |a|
  {
    |a| == 0 || (|b| > 0 && (a[0] < b[0] || (a[0] == b[0] && Leq(a[1..], b[1..]))))
  }

  lemma {:induction false} LeqTotal(a: string, b: string)
    ensures Leq(a, b) || Leq(b, a)
    decreases |a|
  {
    if |a| > 0 && |b| > 0 && a[0] == b[0] {
      LeqTotal(a[1..], b[1..]);
    }
  }

  lemma {:induction false} LeqTransitive(a: string, b: string, c: string)
    requires Leq(a, b) && Leq(b, c)
    ensures Leq(a, c)
    decreases |a|
  {
    if |a| > 0 && a[0] == b[0] && b[0] == c[0] {
      LeqTransitive(a[1..], b[1..], c[1..]);
    }
  }

  predicate Sorted(s: seq<string>)
  {
    forall i, j :: 0 <= i < j < |s| ==> Leq(s[i], s[j])
  }

  /** A string below the head of a sorted list can go in front of it. */
  lemma SortedConsBelow(x: string, s: seq<string>)
    requires Sorted(s) && s != [] && Leq(x, s[0])
    ensures Sorted([x] + s)
  {
    forall j | 0 < j < |s| ensures Leq(x, s[j]) {
      LeqTransitive(x, s[0], s[j]);
    }
  }

  /** The head of a sorted list stays in front when a larger string is
      inserted into its tail. */
  lemma SortedConsAbove(x: string, s: seq<string>, rest: seq<string>)
    requires Sorted(s) && s != [] && !Leq(x, s[0])
    requires Sorted(rest) && multiset(rest) == multiset(s[1..]) + multiset{x}
    ensures Sorted([s[0]] + rest)
    ensures multiset([s[0]] + rest) == multiset(s) + multiset{x}
  {
    LeqTotal(x, s[0]);
    forall k | 0 <= k < |rest| ensures Leq(s[0], rest[k]) {
      assert rest[k] in multiset(rest);
      if rest[k] != x {
        assert rest[k] in multiset(s[1..]);
        var j :| 0 <= j < |s[1..]| && s[1..][j] == rest[k];
        assert s[1 + j] == rest[k];
      }
    }
    assert s == [s[0]] + s[1..];
  }

  function Insert(x: string, s: seq<string>): (r: seq<string>)
    requires Sorted(s)
    ensures Sorted(r)
    ensures multiset(r) == multiset(s) + multiset{x}
  {
    if s == [] then [x]
    else if Leq(x, s[0]) then
      SortedConsBelow(x, s);
      [x] + s
    else
      var rest := Insert(x, s[1..]);
      SortedConsAbove(x, s, rest);
      [s[0]] + rest
  }

  /** `images.sort()` with the default comparison: an ascending rearrangement
      of its input. */
  function SortByName(s: seq<string>): (r: seq<string>)
    ensures Sorted(r)
    ensures multiset(r) == multiset(s)
    ensures |r| == |s|
  {
    if s == [] then []
    else
      assert s == [s[0]] + s[1..];
      Insert(s[0], SortByName(s[1..]))
  }

  // ---------------------------------------------------------------------------
  // Gallery state.

  /** The grid: the empty-gallery hint, or one tile per path in grid order;
      clicking tile `k` calls `openFullscreen(k)`. */
  datatype Grid = EmptyHint | Tiles(paths: seq<string>)

  /** `images` is `this.images`; `index` is `currentImageIndex`; `src` and
      `caption` are the fullscreen image's source and caption text;
      `allowed` is the configured `allowedExtensions`, if any. */
  datatype State = State(
    images: seq<string>,
    index: Index,
    fullscreen: bool,
    src: string,
    caption: string,
    allowed: Option<seq<string>>)

  /** `generateGalleryGrid`: the hint for an empty list, otherwise the tiles of
      a sorted copy. */
  function GridOf(images: seq<string>): (g: Grid)
    ensures g.EmptyHint? <==> |images| == 0
    ensures g.Tiles? ==> Sorted(g.paths) && multiset(g.paths) == multiset(images)
  {
    if |images| == 0 then EmptyHint else Tiles(SortByName(images))
  }

  /** The grid on screen: `generateGalleryGrid` runs after every change to the
      image list, so it is always the grid of the current list. */
  function GridShown(s: State): Grid
  {
    GridOf(s.images)
  }

  /** The gallery right after construction and `loadImages`. */
  function Load(allowed: Option<seq<string>>): (s: State)
    ensures s.images == DefaultImages && s.allowed == allowed
    ensures !s.fullscreen && s.index == Int(0)
  {
    State(DefaultImages, Int(0), false, "", "", allowed)
  }

  /** Whether `images[index]` is truthy: present and not the empty string. */
  predicate ShowsImage(s: State): (b: bool)
    ensures b ==> s.index.Int? && 0 <= s.index.i < |s.images|
    ensures |s.images| == 0 || s.index.NaN? ==> !b
  {
    InBounds(s.index, s.images) && s.images[s.index.i] != ""
  }

  /** The caption and alt text "图片 k/n". */
  function Caption(i: int, n: int): (c: string)
    ensures |c| > 3 && c[..3] == "图片 "
  {
    LabelSplit("图片 ", Decimal(i + 1), "/" + Decimal(n));
    "图片 " + Decimal(i + 1) + ("/" + Decimal(n))
  }

  /** The number after "图片 " in the caption reads back as the 1-based
      position of the image. */
  lemma CaptionNumber(i: int, n: int)
    requires i >= 0
    ensures ParseInt(Caption(i, n)[3..]) == Some(i + 1)
  {
    var k := Decimal(i + 1);
    var rest := "/" + Decimal(n);
    LabelSplit("图片 ", k, rest);
    assert rest[0] == '/';
    ParseIntPrefix(k, rest);
  }

  /** After the position and a "/", the caption ends with the total, which
      reads back as `n`. */
  lemma CaptionTotal(i: int, n: int)
    ensures var k := |Decimal(i + 1)|;
            Caption(i, n)[3 + k] == '/' && ParseInt(Caption(i, n)[4 + k..]) == Some(n)
  {
    var k := Decimal(i + 1);
    var rest := "/" + Decimal(n);
    LabelSplit("图片 ", k, rest);
    assert Caption(i, n)[3..] == k + rest;
    assert Caption(i, n)[4 + |k|..] == rest[1..] == Decimal(n);
    ParseDecimal(n);
  }

  lemma LabelSplit(prefix: string, a: string, b: string)
    ensures |prefix + a + b| == |prefix| + |a| + |b|
    ensures (prefix + a + b)[..|prefix|] == prefix
    ensures (prefix + a + b)[|prefix|..] == a + b
  {
  }

  /** `updateFullscreenContent`. */
  function UpdateContent(s: State): (r: State)
    ensures ShowsImage(s) ==> r.src == s.images[s.index.i]
                              && r.caption == Caption(s.index.i, |s.images|)
    ensures !ShowsImage(s) ==> r == s
    ensures r.images == s.images && r.index == s.index && r.fullscreen == s.fullscreen
  {
    if ShowsImage(s) then
      s.(src := s.images[s.index.i], caption := Caption(s.index.i, |s.images|))
    else s
  }

  /** `openFullscreen(index)`. */
  function OpenFullscreen(s: State, index: int): (r: State)
    ensures r.index == Int(index) && r.fullscreen
    ensures r.images == s.images
    ensures 0 <= index < |s.images| && s.images[index] != "" ==> r.src == s.images[index]
  {
    UpdateContent(s.(index := Int(index), fullscreen := true))
  }

  /** `closeFullscreen`. */
  function CloseFullscreen(s: State): (r: State)
    ensures !r.fullscreen
    ensures r.images == s.images && r.index == s.index
  {
    s.(fullscreen := false)
  }

  /** `showNextImage`: `(index + 1) % images.length`. */
  function ShowNext(s: State): (r: State)
    ensures |s.images| > 0 && s.index.Int? && 0 <= s.index.i < |s.images| ==>
      && r.index.Int? && 0 <= r.index.i < |s.images|
      && (s.index.i == |s.images| - 1 ==> r.index == Int(0))
      && (s.index.i < |s.images| - 1 ==> r.index == Int(s.index.i + 1))
    ensures |s.images| == 0 ==> r.index == NaN && r.src == s.src
    ensures r.images == s.images && r.fullscreen == s.fullscreen
  {
    if |s.images| > 0 && s.index.Int? && 0 <= s.index.i < |s.images| then
      ShiftForward(s.index, |s.images|);
      UpdateContent(s.(index := Shift(s.index, 1, |s.images|)))
    else
      UpdateContent(s.(index := Shift(s.index, 1, |s.images|)))
  }

  /** `showPreviousImage`: `(index - 1 + images.length) % images.length`. */
  function ShowPrevious(s: State): (r: State)
    ensures |s.images| > 0 && s.index.Int? && 0 <= s.index.i < |s.images| ==>
      && r.index.Int? && 0 <= r.index.i < |s.images|
      && (s.index.i == 0 ==> r.index == Int(|s.images| - 1))
      && (s.index.i > 0 ==> r.index == Int(s.index.i - 1))
    ensures |s.images| == 0 ==> r.index == NaN && r.src == s.src
    ensures r.images == s.images && r.fullscreen == s.fullscreen
  {
    if |s.images| > 0 && s.index.Int? && 0 <= s.index.i < |s.images| then
      ShiftBackward(s.index, |s.images|);
      UpdateContent(s.(index := Shift(s.index, |s.images| - 1, |s.images|)))
    else
      UpdateContent(s.(index := Shift(s.index, |s.images| - 1, |s.images|)))
  }

  /** Previous undoes next, and next undoes previous, on a valid index. */
  lemma PreviousAfterNext(s: State)
    requires |s.images| > 0 && s.index.Int? && 0 <= s.index.i < |s.images|
    ensures ShowPrevious(ShowNext(s)).index == s.index
    ensures ShowNext(ShowPrevious(s)).index == s.index
  {
  }

  /** `handleKeydown(e)` with `e.key == key`. */
  function HandleKeydown(s: State, key: string): (r: State)
    ensures !s.fullscreen ==> r == s
    ensures s.fullscreen && key == "Escape" ==> r == CloseFullscreen(s)
    ensures s.fullscreen && key == "ArrowLeft" ==> r == ShowPrevious(s)
    ensures s.fullscreen && key == "ArrowRight" ==> r == ShowNext(s)
    ensures key !in {"Escape", "ArrowLeft", "ArrowRight"} ==> r == s
  {
    if !s.fullscreen then s
    else if key == "Escape" then CloseFullscreen(s)
    else if key == "ArrowLeft" then ShowPrevious(s)
    else if key == "ArrowRight" then ShowNext(s)
    else s
  }

  /** `imagePath.toLowerCase().substring(imagePath.lastIndexOf('.'))`: the
      lower-cased suffix from the last dot, or the whole lower-cased path when
      there is no dot. */
  function Extension(path: string): (ext: string)
    ensures LastIndexOf(path, '.') == -1 ==> ext == ToLower(path)
    ensures LastIndexOf(path, '.') >= 0 ==>
      ext == ToLower(path)[LastIndexOf(path, '.')..] && |ext| > 0 && ext[0] == '.'
  {
    Substring(ToLower(path), LastIndexOf(path, '.'))
  }

  /** `config.allowedExtensions || ['.jpg', '.jpeg', '.png']`: a configured
      list is used as given, even an empty one (an array is truthy); without
      one the three lower-case image suffixes are allowed. */
  function AllowedExtensions(s: State): (exts: seq<string>)
    ensures s.allowed.Some? ==> exts == s.allowed.value
    ensures s.allowed == None ==> |exts| == 3 && ".jpg" in exts && ".jpeg" in exts && ".png" in exts
  {
    if s.allowed.Some? then s.allowed.value else DefaultExtensions
  }

  /** `addImage(path)`: appends the path unchanged and rebuilds the grid when
      its extension is allowed; otherwise nothing changes. */
  function AddImage(s: State, path: string): (r: State)
    ensures Extension(path) in AllowedExtensions(s) ==>
      r.images == s.images + [path]
    ensures Extension(path) !in AllowedExtensions(s) ==> r == s
    ensures r.index == s.index && r.fullscreen == s.fullscreen
  {
    if Extension(path) in AllowedExtensions(s) then
      s.(images := s.images + [path])
    else s
  }

  /** Clicking tile `k` of the grid on screen: `openFullscreen(k)`. */
  function ClickTile(s: State, k: int): (r: State)
    requires GridShown(s).Tiles? && 0 <= k < |GridShown(s).paths|
    ensures r.fullscreen && r.index == Int(k)
    ensures s.images[k] != "" ==> r.src == s.images[k]
  {
    OpenFullscreen(s, k)
  }

  /** ".JPG" passes the default filter once lower-cased. */
  lemma UpperCaseExtensionAccepted(s: State)
    requires s.allowed == None
    ensures AddImage(s, "a.JPG").images == s.images + ["a.JPG"]
  {
    assert "a.JPG"[1] == '.';
    assert LastIndexOf("a.JPG", '.') == 1;
    assert ToLower("a.JPG")[1..] == ".jpg";
  }

  /** A ".gif" path is refused and leaves the gallery unchanged. */
  lemma OtherExtensionRefused(s: State)
    requires s.allowed == None
    ensures AddImage(s, "a.gif") == s
  {
    assert "a.gif"[1] == '.';
    assert LastIndexOf("a.gif", '.') == 1;
    assert ToLower("a.gif")[1..] == ".gif";
  }

  /** Without a dot the whole lower-cased path is compared, so a path "PNG" is
      accepted exactly when "png" is an allowed extension. */
  lemma DotlessPathComparedWhole(s: State)
    requires s.allowed == Some(["png"])
    ensures AddImage(s, "PNG").images == s.images + ["PNG"]
  {
    assert LastIndexOf("PNG", '.') == -1;
    assert ToLower("PNG") == "png";
  }

  /** The grid shows a sorted copy while the viewer indexes the unsorted list:
      with images ["b.jpg", "a.jpg"], tile 0 shows "a.jpg" but clicking it
      opens "b.jpg". */
  lemma TileOpensUnsortedImage(s: State)
    requires s.images == ["b.jpg", "a.jpg"]
    ensures GridShown(s) == Tiles(["a.jpg", "b.jpg"])
    ensures ClickTile(s, 0).src == "b.jpg"
  {
    assert Leq("a.jpg", "b.jpg");
    assert !Leq("b.jpg", "a.jpg");
    assert SortByName(["a.jpg"]) == ["a.jpg"];
    assert ["b.jpg", "a.jpg"][1..] == ["a.jpg"];
    assert SortByName(s.images) == Insert("b.jpg", ["a.jpg"]);
    assert Insert("b.jpg", ["a.jpg"]) == ["a.jpg"] + Insert("b.jpg", []);
  }

  /** The tile click as evidently intended: the viewer adopts the grid's order,
      so tile `k` opens the path it shows and the arrow keys walk the grid in
      order. */
  function ClickTileInGridOrder(s: State, k: int): (r: State)
    requires GridShown(s).Tiles? && 0 <= k < |GridShown(s).paths|
    ensures r.fullscreen && r.index == Int(k)
    ensures r.images == GridShown(s).paths
    ensures multiset(r.images) == multiset(s.images)
    ensures GridShown(s).paths[k] != "" ==> r.src == GridShown(s).paths[k]
  {
    OpenFullscreen(s.(images := GridShown(s).paths), k)
  }

  /** With the corrected click, the tile that shows "a.jpg" opens "a.jpg". */
  lemma TileInGridOrderOpensShownImage(s: State)
    requires s.images == ["b.jpg", "a.jpg"]
    ensures ClickTileInGridOrder(s, 0).src == "a.jpg"
  {
    TileOpensUnsortedImage(s);
  }
}

=== FILE: js_number.dfy ===
/** JavaScript number behaviour that the page's index and timer logic relies on:
    truthy positive handles, `Math.random()` draws, the truncating `%` operator and
    the NaN an index becomes after a remainder by zero. */
module JsNumber {

  datatype Option<+T> = None | Some(value: T)

  /** Ids returned by `setInterval` and `requestAnimationFrame` are positive
      integers, hence truthy in an `if (id)` test. */
  type Handle = n: nat | n > 0 witness 1

  /** A value of `Math.random()`. */
  type Unit = r: real | 0.0 <= r < 1.0

  /** An array index held in a JavaScript number: an integer, or NaN after
      `x % 0`. */
  datatype Index = Int(i: int) | NaN

  /** JavaScript's `a % n` on integers: the remainder of the division
      truncated toward zero, so the result takes the sign of `a`. */
  function Rem(a: int, n: int): (r: int)
    requires n > 0
    ensures a >= 0 ==> 0 <= r < n
    ensures a <= 0 ==> -n < r <= 0
    ensures exists q: int :: a == q * n + r
  {
    if a >= 0 then
      assert a == (a / n) * n + a % n;
      a % n
    else
      var q := (-a) / n;
      assert -a == q * n + (-a) % n;
      assert a == (-q) * n + -((-a) % n);
      -((-a) % n)
  }

  /** The remainder is unique once its sign follows the dividend's: for a
      negative dividend it is the truncated one, not Dafny's Euclidean one. */
  lemma RemTruncates(a: int, n: int, q: int, r: int)
    requires n > 0 && a == q * n + r
    requires a >= 0 ==> 0 <= r < n
    requires a <= 0 ==> -n < r <= 0
    ensures Rem(a, n) == r
  {
    if a >= 0 {
      DivModUnique(a, n, q, r);
    } else {
      DivModUnique(-a, n, -q, -r);
    }
  }

  lemma {:induction false} MulAtLeast(m: int, x: int)
    requires m > 0 && x >= 1
    ensures m * x >= m
  {
    assert m * x == m * (x - 1) + m;
    if x > 1 {
      MulAtLeast(m, x - 1);
    }
  }

  /** Euclidean division is determined by its quotient-remainder equation. */
  lemma DivModUnique(a: int, m: int, q: int, r: int)
    requires m > 0 && a == m * q + r && 0 <= r < m
    ensures a / m == q && a % m == r
  {
    var q', r' := a / m, a % m;
    assert a == m * q' + r';
    assert m * q - m * q' == r' - r;
    assert m * (q - q') == m * q - m * q';
    if q > q' {
      MulAtLeast(m, q - q');
    } else if q < q' {
      MulAtLeast(m, q' - q);
    }
  }

  /** `(index + delta) % n` where `n` is an array length; NaN when `n` is 0 or
      the index is already NaN. */
  function Shift(index: Index, delta: int, n: nat): (r: Index)
    ensures n == 0 ==> r == NaN
    ensures index.NaN? ==> r == NaN
    ensures n > 0 && index.Int? && index.i + delta >= 0 ==> r.Int? && 0 <= r.i < n
  {
    if n == 0 || index.NaN? then NaN else Int(Rem(index.i + delta, n))
  }

  /** `Math.floor(r * n)`: the usual way to pick a random array position. */
  function RandomPosition(r: Unit, n: nat): (k: int)
    ensures n > 0 ==> 0 <= k < n
    ensures n == 0 ==> k == 0
  {
    (r * n as real).Floor
  }

  /** Whether `arr[index]` reads an element rather than `undefined`. */
  predicate InBounds<T>(index: Index, arr: seq<T>)
  {
    index.Int? && 0 <= index.i < |arr|
  }

  /** Stepping forward from a valid position wraps only at the end. */
  lemma ShiftForward(index: Index, n: nat)
    requires n > 0 && index.Int? && 0 <= index.i < n
    ensures Shift(index, 1, n) == Int(if index.i == n - 1 then 0 else index.i + 1)
  {
    if index.i == n - 1 {
      RemTruncates(index.i + 1, n, 1, 0);
    } else {
      RemTruncates(index.i + 1, n, 0, index.i + 1);
    }
  }

  /** Stepping back by `n - 1` from a valid position wraps only at the start. */
  lemma ShiftBackward(index: Index, n: nat)
    requires n > 0 && index.Int? && 0 <= index.i < n
    ensures Shift(index, n - 1, n) == Int(if index.i == 0 then n - 1 else index.i - 1)
  {
    if index.i == 0 {
      RemTruncates(n - 1, n, 0, n - 1);
    } else {
      RemTruncates(index.i + n - 1, n, 1, index.i - 1);
    }
  }
}

=== FILE: js_string.dfy ===
/** The handful of JavaScript string operations the page uses: number-to-text
    conversion, `parseInt`, `toLowerCase`, `lastIndexOf`, one-argument
    `substring`, and the `replace(/\\n/g, '<br>')` message rewrite. */
module JsString {
  import opened JsNumber

  predicate IsDigit(c: char)
  {
    '0' <= c <= '9'
  }

  predicate AllDigits(s: string)
  {
    forall i :: 0 <= i < |s| ==> IsDigit(s[i])
  }

  function DigitValue(c: char): nat
    requires IsDigit(c)
  {
    (c as int) - ('0' as int)
  }

  function DigitChar(d: nat): (c: char)
    requires d < 10
    ensures IsDigit(c) && DigitValue(c) == d
  {
    ('0' as int + d) as char
  }

  /** The decimal digits of `n`, most significant first, without leading zeros. */
  function Digits(n: nat): (s: string)
    ensures 1 <= |s|
    ensures AllDigits(s)
    ensures n < 10 <==> |s| == 1
  {
    if n < 10 then [DigitChar(n)] else Digits(n / 10) + [DigitChar(n % 10)]
  }

  /** `${n}` for an integer `n`. */
  function Decimal(n: int): (s: string)
    ensures |s| > 0
    ensures n >= 0 ==> AllDigits(s) && ValueOf(s) == n
    ensures n < 0 ==> s[0] == '-' && AllDigits(s[1..]) && ValueOf(s[1..]) == -n
  {
    if n < 0 then
      ValueOfDigits(-n);
      assert ("-" + Digits(-n))[1..] == Digits(-n);
      "-" + Digits(-n)
    else
      ValueOfDigits(n);
      Digits(n)
  }

  /** The value of a string of decimal digits. */
  function ValueOf(s: string): nat
    requires AllDigits(s)
  {
    if s == [] then 0 else ValueOf(s[..|s| - 1]) * 10 + DigitValue(s[|s| - 1])
  }

  /** Length of the run of digits at the start of `s`. */
  function DigitRun(s: string): (k: nat)
    ensures k <= |s|
    ensures AllDigits(s[..k])
    ensures k < |s| ==> !IsDigit(s[k])
  {
    if s == [] || !IsDigit(s[0]) then 0
    else
      var k := 1 + DigitRun(s[1..]);
      assert s[..k] == [s[0]] + s[1..][..k - 1];
      k
  }

  /** `parseInt(s)`: an optional sign followed by the longest run of decimal
      digits; NaN (`None`) when there is no digit. */
  function ParseInt(s: string): (r: Option<int>)
    ensures r.Some? <==> (|s| > 0 && IsDigit(s[0]))
                         || (|s| > 1 && (s[0] == '-' || s[0] == '+') && IsDigit(s[1]))
    ensures r.Some? && |s| > 0 && s[0] == '-' ==> r.value <= 0
    ensures r.Some? && !(|s| > 0 && s[0] == '-') ==> r.value >= 0
    ensures |s| > 0 && AllDigits(s) ==> r == Some(ValueOf(s))
  {
    var negative := |s| > 0 && s[0] == '-';
    var rest := if |s| > 0 && (s[0] == '-' || s[0] == '+') then s[1..] else s;
    var k := DigitRun(rest);
    if k == 0 then None
    else if negative then Some(-(ValueOf(rest[..k]) as int))
    else if AllDigits(s) then
      DigitRunAll(s);
      assert rest == s && rest[..k] == s;
      Some(ValueOf(s))
    else Some(ValueOf(rest[..k]))
  }

  lemma {:induction false} ValueOfDigits(n: nat)
    ensures ValueOf(Digits(n)) == n
  {
    if n >= 10 {
      var s := Digits(n);
      assert s[..|s| - 1] == Digits(n / 10);
      ValueOfDigits(n / 10);
    }
  }

  lemma DigitRunAll(s: string)
    requires AllDigits(s)
    ensures DigitRun(s) == |s|
  {
  }

  /** `parseInt` reads back every integer printed with `${n}`. */
  lemma ParseDecimal(n: int)
    ensures ParseInt(Decimal(n)) == Some(n)
  {
    var m := if n < 0 then -n else n;
    ValueOfDigits(m);
    DigitRunAll(Digits(m));
    assert Digits(m)[..|Digits(m)|] == Digits(m);
    if n < 0 {
      assert Decimal(n)[1..] == Digits(m);
    }
  }

  /** The digit run stops where the digits end. */
  lemma {:induction false} DigitRunStops(a: string, t: string)
    requires AllDigits(a)
    requires t == [] || !IsDigit(t[0])
    ensures DigitRun(a + t) == |a|
    decreases |a|
  {
    if a == [] {
      assert a + t == t;
    } else {
      assert (a + t)[0] == a[0];
      assert (a + t)[1..] == a[1..] + t;
      DigitRunStops(a[1..], t);
    }
  }

  /** `parseInt` reads the leading digits and ignores whatever follows them. */
  lemma ParseIntPrefix(a: string, t: string)
    requires |a| > 0 && AllDigits(a)
    requires t == [] || !IsDigit(t[0])
    ensures ParseInt(a + t) == Some(ValueOf(a))
  {
    var s := a + t;
    if t == [] {
      assert s == a;
    } else {
      DigitRunStops(a, t);
      assert s[0] == a[0] && s[|a|] == t[0];
      assert !AllDigits(s);
      assert s[..|a|] == a;
    }
  }

  /** A leading zero does not change the value of a digit string. */
  lemma {:induction false} ValueOfLeadingZero(s: string)
    requires AllDigits(s)
    ensures AllDigits("0" + s)
    ensures ValueOf("0" + s) == ValueOf(s)
  {
    if s != [] {
      var t := "0" + s;
      assert t[..|t| - 1] == "0" + s[..|s| - 1];
      ValueOfLeadingZero(s[..|s| - 1]);
    }
  }

  function LowerChar(c: char): (d: char)
    ensures 'A' <= c <= 'Z' ==> 'a' <= d <= 'z' && d as int == c as int + 32
    ensures !('A' <= c <= 'Z') ==> d == c
  {
    if 'A' <= c <= 'Z' then (c as int + 32) as char else c
  }

  /** `toLowerCase()` on the ASCII letters. */
  function ToLower(s: string): (r: string)
    ensures |r| == |s|
    ensures forall i :: 0 <= i < |s| ==> r[i] == LowerChar(s[i])
  {
    seq(|s|, i requires 0 <= i < |s| => LowerChar(s[i]))
  }

  /** `s.lastIndexOf(c)`: the last position holding `c`, or -1. */
  function LastIndexOf(s: string, c: char): (k: int)
    ensures -1 <= k < |s|
    ensures k >= 0 ==> s[k] == c
    ensures forall j :: k < j < |s| ==> s[j] != c
  {
    if s == [] then -1
    else if s[|s| - 1] == c then |s| - 1
    else LastIndexOf(s[..|s| - 1], c)
  }

  /** `s.substring(start)`: a negative start counts as 0, one past the end as
      the end. */
  function Substring(s: string, start: int): (r: string)
    ensures start <= 0 ==> r == s
    ensures 0 <= start <= |s| ==> r == s[start..]
    ensures start >= |s| ==> r == []
  {
    if start <= 0 then s else if start >= |s| then [] else s[start..]
  }

  /** Whether `s` holds the two characters backslash, `n` at position `i`. */
  predicate LiteralBreakAt(s: string, i: int)
  {
    0 <= i < |s| - 1 && s[i] == '\\' && s[i + 1] == 'n'
  }

  predicate NoLiteralBreak(s: string)
  {
    forall i | 0 <= i < |s| :: !LiteralBreakAt(s, i)
  }

  /** Number of backslash-`n` pairs in `s` (they cannot overlap). */
  function LiteralBreaks(s: string): nat
  {
    if |s| < 2 then 0
    else (if LiteralBreakAt(s, 0) then 1 else 0) + LiteralBreaks(s[1..])
  }

  /** `s.replace(/\\n/g, '<br>')`: every backslash-`n` pair becomes `<br>`,
      scanning left to right; a real newline character is not matched. */
  function ReplaceLiteralBreaks(s: string): (r: string)
    ensures |s| > 0 ==> |r| > 0 && r[0] == (if LiteralBreakAt(s, 0) then '<' else s[0])
    ensures |r| == |s| + 2 * LiteralBreaks(s)
    ensures NoLiteralBreak(r)
    ensures multiset(r)['\n'] == multiset(s)['\n']
    decreases |s|
  {
    if s == [] then []
    else if LiteralBreakAt(s, 0) then
      var rest := ReplaceLiteralBreaks(s[2..]);
      BreakPrefix(s, rest);
      "<br>" + rest
    else
      var rest := ReplaceLiteralBreaks(s[1..]);
      CharPrefix(s, rest);
      [s[0]] + rest
  }

  /** The step of the rewrite that turns a leading pair into `<br>`. */
  lemma BreakPrefix(s: string, rest: string)
    requires LiteralBreakAt(s, 0)
    requires NoLiteralBreak(rest)
    requires |rest| == |s| - 2 + 2 * LiteralBreaks(s[2..])
    requires multiset(rest)['\n'] == multiset(s[2..])['\n']
    ensures NoLiteralBreak("<br>" + rest)
    ensures |"<br>" + rest| == |s| + 2 * LiteralBreaks(s)
    ensures multiset("<br>" + rest)['\n'] == multiset(s)['\n']
  {
    var r := "<br>" + rest;
    assert LiteralBreaks(s[1..]) == LiteralBreaks(s[2..]) by {
      assert !LiteralBreakAt(s[1..], 0);
      assert s[1..][1..] == s[2..];
    }
    forall i | 4 <= i < |r| - 1
      ensures !LiteralBreakAt(r, i)
    {
      assert r[i] == rest[i - 4] && r[i + 1] == rest[i - 3];
      assert !LiteralBreakAt(rest, i - 4);
    }
    assert s == s[..2] + s[2..];
    assert multiset(s) == multiset(s[..2]) + multiset(s[2..]);
    assert multiset(r) == multiset("<br>") + multiset(rest);
  }

  /** Copying a character that does not start a pair in front of a rewritten
      tail creates no pair. */
  lemma CharPrefixNoBreak(s: string, rest: string)
    requires |s| > 0 && !LiteralBreakAt(s, 0)
    requires NoLiteralBreak(rest)
    requires |s| > 1 ==> |rest| > 0 && rest[0] == (if LiteralBreakAt(s[1..], 0) then '<' else s[1])
    requires |s| == 1 ==> rest == []
    ensures NoLiteralBreak([s[0]] + rest)
  {
    var r := [s[0]] + rest;
    forall i | 0 <= i < |r| - 1
      ensures !LiteralBreakAt(r, i)
    {
      if i == 0 {
        assert r[1] == rest[0];
      } else {
        assert r[i] == rest[i - 1] && r[i + 1] == rest[i];
        assert !LiteralBreakAt(rest, i - 1);
      }
    }
  }

  /** The step of the rewrite that copies a character that does not start a pair. */
  lemma CharPrefix(s: string, rest: string)
    requires |s| > 0 && !LiteralBreakAt(s, 0)
    requires NoLiteralBreak(rest)
    requires |s| > 1 ==> |rest| > 0 && rest[0] == (if LiteralBreakAt(s[1..], 0) then '<' else s[1])
    requires |rest| == |s| - 1 + 2 * LiteralBreaks(s[1..])
    requires multiset(rest)['\n'] == multiset(s[1..])['\n']
    ensures NoLiteralBreak([s[0]] + rest)
    ensures |[s[0]] + rest| == |s| + 2 * LiteralBreaks(s)
    ensures multiset([s[0]] + rest)['\n'] == multiset(s)['\n']
  {
    CharPrefixNoBreak(s, rest);
    assert LiteralBreaks(s) == LiteralBreaks(s[1..]);
    assert multiset([s[0]] + rest)['\n'] == multiset(s)['\n'] by {
      assert s == [s[0]] + s[1..];
      assert multiset(s) == multiset([s[0]]) + multiset(s[1..]);
      assert multiset([s[0]] + rest) == multiset([s[0]]) + multiset(rest);
    }
  }

  /** The rewrite leaves a message alone exactly when it holds no
      backslash-`n` pair. */
  lemma ReplaceIdentityIff(s: string)
    ensures ReplaceLiteralBreaks(s) == s <==> LiteralBreaks(s) == 0
  {
    if LiteralBreaks(s) == 0 {
      NoBreaksUnchanged(s);
    }
  }

  lemma {:induction false} NoBreaksUnchanged(s: string)
    requires LiteralBreaks(s) == 0
    ensures ReplaceLiteralBreaks(s) == s
    decreases |s|
  {
    if |s| >= 2 {
      assert !LiteralBreakAt(s, 0);
      NoBreaksUnchanged(s[1..]);
    } else if |s| == 1 {
      assert s == [s[0]] && s[1..] == [];
    }
  }

  /** Rewriting an already rewritten message changes nothing. */
  lemma ReplaceIdempotent(s: string)
    ensures ReplaceLiteralBreaks(ReplaceLiteralBreaks(s)) == ReplaceLiteralBreaks(s)
  {
    var r := ReplaceLiteralBreaks(s);
    NoBreakCount(r);
    NoBreaksUnchanged(r);
  }

  lemma {:induction false} NoBreakCount(s: string)
    requires NoLiteralBreak(s)
    ensures LiteralBreaks(s) == 0
    decreases |s|
  {
    if |s| >= 2 {
      assert !LiteralBreakAt(s, 0);
      forall i | 0 <= i < |s| - 1 ensures !LiteralBreakAt(s[1..], i) {
        assert !LiteralBreakAt(s, i + 1);
      }
      NoBreakCount(s[1..]);
    }
  }

  /** A leading backslash-`n` pair becomes `<br>`, and the rest is rewritten
      on its own. */
  lemma ReplaceLeadingBreak(t: string)
    ensures ReplaceLiteralBreaks(['\\', 'n'] + t) == "<br>" + ReplaceLiteralBreaks(t)
  {
    var s := ['\\', 'n'] + t;
    assert LiteralBreakAt(s, 0) && s[2..] == t;
  }

  /** A leading character other than a backslash is kept as it is. */
  lemma ReplaceLeadingChar(c: char, t: string)
    requires c != '\\'
    ensures ReplaceLiteralBreaks([c] + t) == [c] + ReplaceLiteralBreaks(t)
  {
    var s := [c] + t;
    assert !LiteralBreakAt(s, 0) && s[1..] == t;
  }

  /** A message without a backslash is rendered as it is, newlines included. */
  lemma {:induction false} NoBackslashVerbatim(msg: string)
    requires '\\' !in msg
    ensures ReplaceLiteralBreaks(msg) == msg
    decreases |msg|
  {
    if msg != [] {
      assert msg == [msg[0]] + msg[1..];
      NoBackslashVerbatim(msg[1..]);
    }
  }
}

=== FILE: snowfall.dfy ===
/** The snowfall animation's pool of flakes: creation, the per-frame drift
    with recycling of flakes that leave the viewport, the temporary
    intensification and its undoing, and pausing, resuming and hiding. The
    viewport size, `Math.sin` and every `Math.random()` value arrive as
    parameters. */
module Snowfall {
  import opened JsNumber

  datatype Range = Range(lo: real, hi: real)

  /** The `snowfall` configuration section; 0 and `None` stand for missing
      entries, which `||` replaces by the defaults. */
  datatype Config = Config(count: nat, sizeRange: Option<Range>, speedRange: Option<Range>, windForce: real)

  function FlakeCount(cfg: Config): (n: nat)
    ensures n > 0
    ensures cfg.count > 0 ==> n == cfg.count
  {
    if cfg.count == 0 then 100 else cfg.count
  }

  /** `config.sizeRange || [1, 8]`. */
  function SizeRange(cfg: Config): Range
  {
    if cfg.sizeRange.Some? then cfg.sizeRange.value else Range(1.0, 8.0)
  }

  /** `config.speedRange || [1, 5]`. */
  function SpeedRange(cfg: Config): Range
  {
    if cfg.speedRange.Some? then cfg.speedRange.value else Range(1.0, 5.0)
  }

  /** A configured range is used as given; without one, sizes and speeds come
      from proper ranges of positive values, so every default flake is
      visible and falls. */
  lemma DefaultRanges(cfg: Config)
    ensures cfg.sizeRange.Some? ==> SizeRange(cfg) == cfg.sizeRange.value
    ensures cfg.speedRange.Some? ==> SpeedRange(cfg) == cfg.speedRange.value
    ensures cfg.sizeRange == None ==> 0.0 < SizeRange(cfg).lo < SizeRange(cfg).hi
    ensures cfg.speedRange == None ==> 0.0 < SpeedRange(cfg).lo < SpeedRange(cfg).hi
  {
  }

  /** `config.windForce || 0.5`: a configured 0 is falsy and replaced by the
      default, so the wind can never be switched off. */
  function WindForce(cfg: Config): (w: real)
    ensures w != 0.0
    ensures cfg.windForce != 0.0 ==> w == cfg.windForce
    ensures cfg.windForce == 0.0 ==> w > 0.0
  {
    if cfg.windForce == 0.0 then 0.5 else cfg.windForce
  }

  /** Asking for no wind still gives wind: the configured value is kept
      exactly when it is not zero. */
  lemma WindNeverOff(cfg: Config)
    ensures WindForce(cfg) == cfg.windForce <==> cfg.windForce != 0.0
    ensures WindForce(cfg.(windForce := 0.0)) == WindForce(cfg.(windForce := 0.5))
  {
  }

  datatype Viewport = Viewport(width: real, height: real)

  datatype Flake = Flake(
    x: real, y: real, size: real, speed: real, opacity: real,
    windOffset: real, windPhase: real, rotation: real, rotationSpeed: real)

  /** The `Math.random()` values behind one new flake, and its starting wind
      phase `Math.random() * Math.PI * 2`. */
  datatype FlakeDraw = FlakeDraw(size: Unit, speed: Unit, x: Unit, opacity: Unit, phase: real, spin: Unit)

  /** `animationId` is the pending frame request; `hidden` is the container's
      `display: none`. */
  datatype State = State(
    flakes: seq<Flake>,
    cfg: Config,
    animationId: Option<Handle>,
    isPaused: bool,
    hidden: bool)

  const StartY: real := -20.0

  /** `Math.random() * w` lies between 0 and `w`. */
  lemma UnitScale(u: Unit, w: real)
    ensures w >= 0.0 ==> 0.0 <= u * w <= w
  {
    if w >= 0.0 {
      assert w - u * w == (1.0 - u) * w;
    }
  }

  /** `Math.random() * (hi - lo) + lo`. */
  function Pick(u: Unit, range: Range): (v: real)
    ensures range.lo <= range.hi ==> range.lo <= v <= range.hi
  {
    var w := range.hi - range.lo;
    UnitScale(u, w);
    u * w + range.lo
  }

  /** `createSnowflake`: a flake just above the top edge, with size, speed,
      position and spin drawn from their ranges. */
  function NewFlake(cfg: Config, view: Viewport, d: FlakeDraw): (f: Flake)
    ensures f.y == StartY && f.windOffset == 0.0 && f.rotation == 0.0
    ensures f.windPhase == d.phase
    ensures SizeRange(cfg).lo <= SizeRange(cfg).hi ==> SizeRange(cfg).lo <= f.size <= SizeRange(cfg).hi
    ensures SpeedRange(cfg).lo <= SpeedRange(cfg).hi ==> SpeedRange(cfg).lo <= f.speed <= SpeedRange(cfg).hi
    ensures view.width >= 0.0 ==> 0.0 <= f.x <= view.width
    ensures 0.2 <= f.opacity < 1.0
    ensures -1.0 <= f.rotationSpeed < 1.0
  {
    UnitScale(d.x, view.width);
    Flake(d.x * view.width, StartY, Pick(d.size, SizeRange(cfg)),
          Pick(d.speed, SpeedRange(cfg)), d.opacity * 0.8 + 0.2,
          0.0, d.phase, 0.0, (d.spin - 0.5) * 2.0)
  }

  /** The constructor and `init`: `count` new flakes, animation requested. */
  function Init(cfg: Config, view: Viewport, draws: nat -> FlakeDraw, id: Handle): (s: State)
    ensures |s.flakes| == FlakeCount(cfg)
    ensures forall k :: 0 <= k < |s.flakes| ==> s.flakes[k] == NewFlake(cfg, view, draws(k))
    ensures s.animationId == Some(id) && !s.isPaused && !s.hidden
  {
    State(seq(FlakeCount(cfg), k requires k >= 0 => NewFlake(cfg, view, draws(k))), cfg, Some(id), false, false)
  }

  // ---------------------------------------------------------------------------
  // One frame.

  /** The motion of one flake in one frame. */
  function Drift(f: Flake, windForce: real, sine: real -> real): (g: Flake)
    ensures g.y == f.y + f.speed
    ensures g.windPhase == f.windPhase + 0.01
    ensures g.x == f.x + g.windOffset
    ensures g.rotation == f.rotation + f.rotationSpeed
    ensures g.size == f.size && g.speed == f.speed && g.rotationSpeed == f.rotationSpeed
  {
    var phase := f.windPhase + 0.01;
    var wind := sine(phase) * windForce * f.size;
    f.(y := f.y + f.speed, windPhase := phase, windOffset := wind, x := f.x + wind,
       rotation := f.rotation + f.rotationSpeed)
  }

  /** Below the bottom edge by more than 20 px, or more than 100 px beyond
      either side. */
  predicate Outside(f: Flake, view: Viewport): (b: bool)
    ensures f.y == StartY && view.height >= 0.0 && 0.0 <= f.x <= view.width ==> !b
    ensures f.x < -100.0 ==> b
  {
    f.y > view.height + 20.0 || f.x < -100.0 || f.x > view.width + 100.0
  }

  /** A new flake starts inside any viewport of non-negative size, so it is
      not recycled before it has moved. */
  lemma NewFlakeInside(cfg: Config, view: Viewport, d: FlakeDraw)
    requires view.width >= 0.0 && view.height >= 0.0
    ensures !Outside(NewFlake(cfg, view, d), view)
  {
  }

  /** The `forEach` pass as written, from position `k` on. A flake that leaves
      the viewport is spliced out and a new one pushed at the end; the array
      length stays the same, so the pass still visits every position, but the
      flake that moved into the vacated position is never visited and the new
      flake is visited when the pass reaches the end. `draws(k)` feeds the
      flake created at position `k`. */
  function Sweep(fs: seq<Flake>, k: nat, s: State, view: Viewport, sine: real -> real,
                 draws: nat -> FlakeDraw): (r: seq<Flake>)
    requires k <= |fs|
    ensures |r| == |fs|
    ensures r[..k] == fs[..k]
    decreases |fs| - k
  {
    if k == |fs| then fs
    else
      var f := Drift(fs[k], WindForce(s.cfg), sine);
      if Outside(f, view) then
        Sweep(fs[..k] + fs[k + 1..] + [NewFlake(s.cfg, view, draws(k))], k + 1, s, view, sine, draws)
      else
        Sweep(fs[k := f], k + 1, s, view, sine, draws)
  }

  /** The pass as evidently intended: every flake moves once, and a flake that
      leaves is replaced in its own position. */
  function SweepInPlace(fs: seq<Flake>, s: State, view: Viewport, sine: real -> real,
                        draws: nat -> FlakeDraw): (r: seq<Flake>)
    ensures |r| == |fs|
  {
    seq(|fs|, k requires 0 <= k < |fs| =>
      var f := Drift(fs[k], WindForce(s.cfg), sine);
      if Outside(f, view) then NewFlake(s.cfg, view, draws(k)) else f)
  }

  /** The corrected pass moves each flake exactly once and recycles exactly
      the ones that left, in place. */
  lemma InPlaceMovesEveryFlake(fs: seq<Flake>, s: State, view: Viewport, sine: real -> real,
                               draws: nat -> FlakeDraw, k: nat)
    requires k < |fs|
    ensures var f := Drift(fs[k], WindForce(s.cfg), sine);
            var r := SweepInPlace(fs, s, view, sine, draws);
            (Outside(f, view) ==> r[k] == NewFlake(s.cfg, view, draws(k)))
            && (!Outside(f, view) ==> r[k] == f)
  {
  }

  /** In the pass as written, when the flake at position `k` is recycled the
      flake after it keeps its old state for the frame. */
  lemma RecycleSkipsNext(fs: seq<Flake>, k: nat, s: State, view: Viewport, sine: real -> real,
                         draws: nat -> FlakeDraw)
    requires k + 1 < |fs|
    requires Outside(Drift(fs[k], WindForce(s.cfg), sine), view)
    ensures Sweep(fs, k, s, view, sine, draws)[k] == fs[k + 1]
  {
    var next := fs[..k] + fs[k + 1..] + [NewFlake(s.cfg, view, draws(k))];
    var r := Sweep(next, k + 1, s, view, sine, draws);
    assert r[..k + 1] == next[..k + 1];
    assert r[k] == r[..k + 1][k];
  }

  /** From position `k` on, when no visited flake leaves the viewport, the
      pass as written drifts every one of them in place and keeps the ones
      before `k`. */
  lemma {:induction false} SweepNoneLeave(fs: seq<Flake>, k: nat, s: State, view: Viewport,
                                          sine: real -> real, draws: nat -> FlakeDraw)
    requires k <= |fs|
    requires forall j :: k <= j < |fs| ==> !Outside(Drift(fs[j], WindForce(s.cfg), sine), view)
    ensures Sweep(fs, k, s, view, sine, draws)
            == fs[..k] + seq(|fs| - k, j requires 0 <= j < |fs| - k =>
                               Drift(fs[k + j], WindForce(s.cfg), sine))
    decreases |fs| - k
  {
    if k < |fs| {
      var w := WindForce(s.cfg);
      var f := Drift(fs[k], w, sine);
      var fs' := fs[k := f];
      assert forall j :: k + 1 <= j < |fs'| ==> fs'[j] == fs[j];
      SweepNoneLeave(fs', k + 1, s, view, sine, draws);
      var tail := seq(|fs'| - (k + 1), j requires 0 <= j < |fs'| - (k + 1) => Drift(fs'[k + 1 + j], w, sine));
      var whole := seq(|fs| - k, j requires 0 <= j < |fs| - k => Drift(fs[k + j], w, sine));
      assert fs'[..k + 1] == fs[..k] + [f];
      assert whole == [f] + tail by {
        forall j | 0 <= j < |whole| ensures whole[j] == ([f] + tail)[j] {
          if j > 0 {
            assert fs'[k + 1 + (j - 1)] == fs[k + j];
          }
        }
      }
    } else {
      assert fs[..k] == fs;
    }
  }

  /** When no flake leaves, the pass as written and the corrected pass agree:
      the skip only shows once a flake is recycled. */
  lemma SweepAgreesWhenNoneLeave(fs: seq<Flake>, s: State, view: Viewport, sine: real -> real,
                                 draws: nat -> FlakeDraw)
    requires forall j :: 0 <= j < |fs| ==> !Outside(Drift(fs[j], WindForce(s.cfg), sine), view)
    ensures Sweep(fs, 0, s, view, sine, draws) == SweepInPlace(fs, s, view, sine, draws)
  {
    SweepNoneLeave(fs, 0, s, view, sine, draws);
  }

  /** One recycle at position `k`, with no other flake leaving: the flake
      after it keeps its old state, every later flake drifts once, and the
      fresh flake pushed at the end is itself visited and drifted. */
  lemma SweepOneRecycle(fs: seq<Flake>, k: nat, s: State, view: Viewport, sine: real -> real,
                        draws: nat -> FlakeDraw)
    requires k + 1 < |fs|
    requires Outside(Drift(fs[k], WindForce(s.cfg), sine), view)
    requires forall j :: k + 2 <= j < |fs| ==> !Outside(Drift(fs[j], WindForce(s.cfg), sine), view)
    requires !Outside(Drift(NewFlake(s.cfg, view, draws(k)), WindForce(s.cfg), sine), view)
    ensures Sweep(fs, k, s, view, sine, draws)
            == fs[..k] + [fs[k + 1]]
               + seq(|fs| - k - 2, j requires 0 <= j < |fs| - k - 2 =>
                       Drift(fs[k + 2 + j], WindForce(s.cfg), sine))
               + [Drift(NewFlake(s.cfg, view, draws(k)), WindForce(s.cfg), sine)]
  {
    var born := NewFlake(s.cfg, view, draws(k));
    var next := fs[..k] + fs[k + 1..] + [born];
    var mid := seq(|fs| - k - 2, j requires 0 <= j < |fs| - k - 2 =>
                     Drift(fs[k + 2 + j], WindForce(s.cfg), sine));
    var last := Drift(born, WindForce(s.cfg), sine);
    RecycledNext(fs, k, born, s, view, sine);
    RecycledTail(fs, k, born, s, sine);
    calc {
      Sweep(fs, k, s, view, sine, draws);
    == { SweepRecycleStep(fs, k, s, view, sine, draws); }
      Sweep(next, k + 1, s, view, sine, draws);
    == { SweepNoneLeave(next, k + 1, s, view, sine, draws); }
      next[..k + 1] + seq(|next| - (k + 1), j requires 0 <= j < |next| - (k + 1) =>
                            Drift(next[k + 1 + j], WindForce(s.cfg), sine));
    ==
      (fs[..k] + [fs[k + 1]]) + (mid + [last]);
    ==
      fs[..k] + [fs[k + 1]] + mid + [last];
    }
  }

  /** After the splice and push, the pass continues over the flakes that
      followed the recycled one and then the new flake, none of which leaves. */
  lemma RecycledNext(fs: seq<Flake>, k: nat, born: Flake, s: State, view: Viewport, sine: real -> real)
    requires k + 1 < |fs|
    requires forall j :: k + 2 <= j < |fs| ==> !Outside(Drift(fs[j], WindForce(s.cfg), sine), view)
    requires !Outside(Drift(born, WindForce(s.cfg), sine), view)
    ensures var next := fs[..k] + fs[k + 1..] + [born];
            && |next| == |fs| && next[..k + 1] == fs[..k] + [fs[k + 1]]
            && forall j :: k + 1 <= j < |next| ==> !Outside(Drift(next[j], WindForce(s.cfg), sine), view)
  {
    var next := fs[..k] + fs[k + 1..] + [born];
    forall j | k + 1 <= j < |next| ensures !Outside(Drift(next[j], WindForce(s.cfg), sine), view) {
      if j < |fs| - 1 {
        assert next[j] == fs[j + 1];
      } else {
        assert next[j] == born;
      }
    }
  }

  /** The drifted flakes after the recycled one, then the drifted new flake. */
  lemma RecycledTail(fs: seq<Flake>, k: nat, born: Flake, s: State, sine: real -> real)
    requires k + 1 < |fs|
    ensures var next := fs[..k] + fs[k + 1..] + [born];
            seq(|next| - (k + 1), j requires 0 <= j < |next| - (k + 1) =>
                  Drift(next[k + 1 + j], WindForce(s.cfg), sine))
            == seq(|fs| - k - 2, j requires 0 <= j < |fs| - k - 2 =>
                     Drift(fs[k + 2 + j], WindForce(s.cfg), sine))
               + [Drift(born, WindForce(s.cfg), sine)]
  {
    var next := fs[..k] + fs[k + 1..] + [born];
    var tail := seq(|next| - (k + 1), j requires 0 <= j < |next| - (k + 1) =>
                      Drift(next[k + 1 + j], WindForce(s.cfg), sine));
    var mid := seq(|fs| - k - 2, j requires 0 <= j < |fs| - k - 2 =>
                     Drift(fs[k + 2 + j], WindForce(s.cfg), sine));
    var last := Drift(born, WindForce(s.cfg), sine);
    forall j | 0 <= j < |tail| ensures tail[j] == (mid + [last])[j] {
      if j < |mid| {
        assert next[k + 1 + j] == fs[k + 2 + j];
      } else {
        assert next[k + 1 + j] == born;
      }
    }
  }

  /** A flake that leaves is spliced out, a new one pushed, and the pass moves
      on to the next position. */
  lemma SweepRecycleStep(fs: seq<Flake>, k: nat, s: State, view: Viewport, sine: real -> real,
                         draws: nat -> FlakeDraw)
    requires k < |fs|
    requires Outside(Drift(fs[k], WindForce(s.cfg), sine), view)
    ensures Sweep(fs, k, s, view, sine, draws)
            == Sweep(fs[..k] + fs[k + 1..] + [NewFlake(s.cfg, view, draws(k))], k + 1, s, view, sine, draws)
  {
  }

  /** When the last flake leaves, the pass as written removes it and pushes a
      fresh flake in its place at the end. */
  lemma LastRecycledAtEnd(fs: seq<Flake>, s: State, view: Viewport, sine: real -> real,
                          draws: nat -> FlakeDraw)
    requires |fs| > 0
    requires Outside(Drift(fs[|fs| - 1], WindForce(s.cfg), sine), view)
    ensures Sweep(fs, |fs| - 1, s, view, sine, draws)
            == fs[..|fs| - 1] + [NewFlake(s.cfg, view, draws(|fs| - 1))]
  {
    var k := |fs| - 1;
    assert fs[k + 1..] == [];
    assert fs[..k] + fs[k + 1..] == fs[..k];
  }

  /** The frame callback as written: skipped while paused; otherwise the
      `forEach` pass and a new frame request. */
  function Frame(s: State, view: Viewport, sine: real -> real, draws: nat -> FlakeDraw,
                 id: Handle): (r: State)
    ensures |r.flakes| == |s.flakes|
    ensures s.isPaused ==> r == s
    ensures !s.isPaused ==> r.animationId == Some(id)
    ensures r.cfg == s.cfg && r.isPaused == s.isPaused && r.hidden == s.hidden
  {
    if s.isPaused then s
    else s.(flakes := Sweep(s.flakes, 0, s, view, sine, draws), animationId := Some(id))
  }

  /** The frame callback with the corrected pass. */
  function FrameInPlace(s: State, view: Viewport, sine: real -> real, draws: nat -> FlakeDraw,
                        id: Handle): (r: State)
    ensures |r.flakes| == |s.flakes|
    ensures s.isPaused ==> r == s
    ensures !s.isPaused ==> r.animationId == Some(id)
    ensures !s.isPaused ==> forall k :: 0 <= k < |s.flakes| ==>
              var f := Drift(s.flakes[k], WindForce(s.cfg), sine);
              r.flakes[k] == if Outside(f, view) then NewFlake(s.cfg, view, draws(k)) else f
    ensures r.cfg == s.cfg && r.isPaused == s.isPaused && r.hidden == s.hidden
  {
    if s.isPaused then s
    else s.(flakes := SweepInPlace(s.flakes, s, view, sine, draws), animationId := Some(id))
  }

  /** A frame in which no flake leaves the viewport moves every flake once,
      as written and as corrected alike. */
  lemma FrameAgreesWhenNoneLeave(s: State, view: Viewport, sine: real -> real,
                                 draws: nat -> FlakeDraw, id: Handle)
    requires forall j :: 0 <= j < |s.flakes| ==>
               !Outside(Drift(s.flakes[j], WindForce(s.cfg), sine), view)
    ensures Frame(s, view, sine, draws, id) == FrameInPlace(s, view, sine, draws, id)
    ensures !s.isPaused ==> forall k :: 0 <= k < |s.flakes| ==>
              Frame(s, view, sine, draws, id).flakes[k] == Drift(s.flakes[k], WindForce(s.cfg), sine)
  {
    SweepAgreesWhenNoneLeave(s.flakes, s, view, sine, draws);
  }

  // ---------------------------------------------------------------------------
  // Density.

  function Ceil(x: real): (n: int)
    ensures n as real >= x && (n as real) - 1.0 < x
  {
    -((-x).Floor)
  }

  /** The loop of `intensifySnowfall` from `i` on: one new flake per integer
      `i` below the target. `draws(i)` feeds the flake created at step `i`. */
  function AddFlakes(fs: seq<Flake>, i: int, target: real, cfg: Config, view: Viewport,
                     draws: nat -> FlakeDraw): (r: seq<Flake>)
    requires 0 <= i
    ensures |r| == |fs| + (if (i as real) < target then Ceil(target) - i else 0)
    ensures r[..|fs|] == fs
    decreases Ceil(target) - i
  {
    if (i as real) < target then
      AddFlakes(fs + [NewFlake(cfg, view, draws(i))], i + 1, target, cfg, view, draws)
    else fs
  }

  /** `intensifySnowfall(factor)`: grows the pool to `count * factor` flakes,
      rounded up; a pool already that large is left as it is. The existing
      flakes are untouched. */
  function Intensify(s: State, factor: real, view: Viewport, draws: nat -> FlakeDraw): (r: State)
    ensures var target := (FlakeCount(s.cfg) as real) * factor;
            |r.flakes| == if (|s.flakes| as real) < target then Ceil(target) else |s.flakes|
    ensures r.flakes[..|s.flakes|] == s.flakes
    ensures r.cfg == s.cfg && r.animationId == s.animationId && r.isPaused == s.isPaused
  {
    var target := (FlakeCount(s.cfg) as real) * factor;
    s.(flakes := AddFlakes(s.flakes, |s.flakes|, target, s.cfg, view, draws))
  }

  /** `normalizeSnowfall`: pops flakes off the end until at most `count`
      remain. */
  function Normalize(s: State): (r: State)
    ensures |s.flakes| > FlakeCount(s.cfg) ==> r.flakes == s.flakes[..FlakeCount(s.cfg)]
    ensures |s.flakes| <= FlakeCount(s.cfg) ==> r == s
    ensures r.cfg == s.cfg && r.animationId == s.animationId && r.isPaused == s.isPaused
  {
    if |s.flakes| > FlakeCount(s.cfg) then s.(flakes := s.flakes[..FlakeCount(s.cfg)]) else s
  }

  /** Intensifying by a factor of at least 1 and then normalising brings back
      exactly the flakes there were, when there were at most `count`. */
  lemma {:induction false} IntensifyThenNormalize(s: State, factor: real, view: Viewport,
                                                  draws: nat -> FlakeDraw)
    requires |s.flakes| == FlakeCount(s.cfg) && factor >= 1.0
    ensures Normalize(Intensify(s, factor, view, draws)).flakes == s.flakes
  {
    var r := Intensify(s, factor, view, draws);
    var n := FlakeCount(s.cfg);
    assert |r.flakes| >= n;
    if |r.flakes| > n {
      assert r.flakes[..n] == r.flakes[..|s.flakes|];
    } else {
      assert r.flakes == r.flakes[..|s.flakes|];
    }
  }

  /** Tripling the default pool of 100 flakes gives 300 flakes. */
  lemma TripledAtCompletion(s: State, view: Viewport, draws: nat -> FlakeDraw)
    requires s.cfg.count == 0 && |s.flakes| == 100
    ensures |Intensify(s, 3.0, view, draws).flakes| == 300
  {
  }

  // ---------------------------------------------------------------------------
  // Pausing and visibility.

  /** `pause`: cancels the pending frame, if any. */
  function Pause(s: State): (r: State)
    ensures r.animationId == None
    ensures s.animationId.Some? ==> r.isPaused
    ensures s.animationId == None ==> r == s
    ensures r.flakes == s.flakes && r.hidden == s.hidden
  {
    if s.animationId.Some? then s.(animationId := None, isPaused := true) else s
  }

  /** `resume`: restarts the animation only when paused and no frame is
      pending. */
  function Resume(s: State, id: Handle): (r: State)
    ensures s.isPaused && s.animationId == None ==> !r.isPaused && r.animationId == Some(id)
    ensures !(s.isPaused && s.animationId == None) ==> r == s
    ensures r.flakes == s.flakes && r.hidden == s.hidden
  {
    if s.isPaused && s.animationId == None then s.(isPaused := false, animationId := Some(id)) else s
  }

  /** `toggleVisibility`: shows and resumes a hidden pool, hides and pauses a
      shown one. */
  function Toggle(s: State, id: Handle): (r: State)
    ensures r.hidden == !s.hidden
    ensures s.hidden ==> r == Resume(s, id).(hidden := false)
    ensures !s.hidden ==> r == Pause(s).(hidden := true)
    ensures r.flakes == s.flakes
  {
    if s.hidden then Resume(s, id).(hidden := false) else Pause(s).(hidden := true)
  }

  /** A running, visible animation toggled off and on again runs again, with
      the new frame request and nothing else changed. */
  lemma ToggleTwiceResumes(s: State, id: Handle, id': Handle)
    requires s.animationId.Some? && !s.isPaused && !s.hidden
    ensures Toggle(Toggle(s, id), id') == s.(animationId := Some(id'))
  {
  }

  /** Pausing is idempotent, and a paused animation's frames change nothing. */
  lemma PausedFramesAreInert(s: State, view: Viewport, sine: real -> real,
                             draws: nat -> FlakeDraw, id: Handle)
    requires s.animationId.Some?
    ensures Pause(Pause(s)) == Pause(s)
    ensures Frame(Pause(s), view, sine, draws, id) == Pause(s)
  {
  }
}

=== FILE: wishes.dfy ===
/** The New Year wishes modal: choosing a wish at random or in turn, holding
    at most one modal at a time, closing it (with a deferred removal), the
    special completion wish, the Escape key, and adding wishes. */
module Wishes {
  import opened JsNumber
  import opened JsString

  datatype Wish = Wish(title: string, message: string, emoji: string, color: string, special: bool)

  /** The four wishes of the configuration (and of `getDefaultWishes`). */
  const DefaultWishes: seq<Wish> := [
    Wish("新年快乐！", "愿2026年带给你无尽的欢乐与幸福！", "🎉", "#ff0080", false),
    Wish("Happy New Year!", "Wishing you prosperity and joy in 2026!", "🎊", "#00c3ff", false),
    Wish("新年吉祥！", "身体健康，万事如意，财源滚滚！", "💰", "#ffd700", false),
    Wish("新年快乐！", "新的一年，新的开始，新的希望！", "🌟", "#00ff88", false)]

  /** The wish `showSpecialWish` displays; its message holds a real newline. */
  const SpecialMessage := "2025已经过去，2026年正式来临！\n愿你在新的一年里梦想成真，万事如意！"
  const SpecialWish := Wish("新年快乐！🎉", SpecialMessage, "🎇", "#ff0080", true)

  /** Number of fireworks `addWishFireworks` schedules. */
  const WishFireworks := 5

  /** The overlay held in `this.modal`: the wish it shows, the message as
      rendered into the page, whether it has the "另一条祝福" (another wish)
      button, and whether its closing animation has started. */
  datatype Modal = Modal(wish: Wish, messageHtml: string, nextButton: bool, closing: bool)

  /** `listening` says whether the Escape handler is registered on the
      document; `pendingRemovals` counts the `removeModal` timeouts scheduled
      by `closeModal` that have not fired yet. */
  datatype State = State(
    wishes: seq<Wish>,
    index: Index,
    modal: Option<Modal>,
    listening: bool,
    pendingRemovals: nat)

  /** Side effects of showing a wish on the other components. */
  datatype Effects = Effects(fireworks: nat, specialEffects: bool)

  /** A call either completes, or throws a TypeError part way (reading a field
      of `undefined`); the state reached before the throw persists. */
  datatype Outcome = Shown(state: State, effects: Effects) | TypeError(state: State)

  /** The Escape handler is registered exactly while a modal is held. */
  predicate Consistent(s: State)
  {
    s.listening <==> s.modal.Some?
  }

  /** The state after construction, with the configured list. */
  function New(wishes: seq<Wish>): (s: State)
    ensures Consistent(s) && s.modal == None && s.index == Int(0)
  {
    State(wishes, Int(0), None, false, 0)
  }

  /** `removeModal`. */
  function RemoveModal(s: State): (r: State)
    ensures r.modal == None
    ensures s.modal.Some? ==> !r.listening
    ensures s.modal == None ==> r == s
    ensures r.wishes == s.wishes && r.index == s.index && r.pendingRemovals == s.pendingRemovals
  {
    if s.modal == None then s else s.(modal := None, listening := false)
  }

  /** `createModal(wish)`: the new overlay with the rendered message, and the
      Escape handler registered. */
  function CreateModal(s: State, w: Wish): (r: State)
    ensures r.modal.Some? && r.listening
    ensures r.modal.value.wish == w
    ensures r.modal.value.nextButton <==> !w.special
    ensures !r.modal.value.closing
    ensures r.modal.value.messageHtml == ReplaceLiteralBreaks(w.message)
    ensures NoLiteralBreak(r.modal.value.messageHtml)
    ensures r.wishes == s.wishes && r.index == s.index && r.pendingRemovals == s.pendingRemovals
  {
    var m := Modal(w, ReplaceLiteralBreaks(w.message), !w.special, false);
    s.(modal := Some(m), listening := true)
  }

  /** `showWish(wish)`, where `None` stands for `undefined`. `fireworks` says
      whether the fireworks component exists. */
  function ShowWish(s: State, w: Option<Wish>, fireworks: bool): (o: Outcome)
    requires Consistent(s)
    ensures Consistent(o.state)
    ensures w.None? <==> o.TypeError?
    ensures w.None? ==> o.state.modal == None
    ensures w.Some? ==> o.state.modal.Some? && o.state.modal.value.wish == w.value
                        && !o.state.modal.value.closing
                        && o.state.modal.value.messageHtml == ReplaceLiteralBreaks(w.value.message)
    ensures o.Shown? ==> o.effects.specialEffects == w.value.special
                         && o.effects.fireworks == (if fireworks then WishFireworks else 0)
    ensures o.state.wishes == s.wishes && o.state.index == s.index
  {
    var cleared := if s.modal.Some? then RemoveModal(s) else s;
    if w.None? then TypeError(cleared)
    else
      var shown := CreateModal(cleared, w.value);
      Shown(shown, Effects(if fireworks then WishFireworks else 0, w.value.special))
  }

  /** `wishes[index]`, or `undefined`. */
  function At(wishes: seq<Wish>, index: Index): (w: Option<Wish>)
    ensures w.Some? <==> InBounds(index, wishes)
    ensures w.Some? ==> w.value == wishes[index.i]
  {
    if InBounds(index, wishes) then Some(wishes[index.i]) else None
  }

  /** `showRandomWish` with `Math.random()` returning `r`. */
  function ShowRandomWish(s: State, r: Unit, fireworks: bool): (o: Outcome)
    requires Consistent(s)
    ensures Consistent(o.state)
    ensures o.state.index == Int(RandomPosition(r, |s.wishes|))
    ensures |s.wishes| > 0 ==> o.Shown? && 0 <= o.state.index.i < |s.wishes|
                               && o.state.modal.Some?
                               && o.state.modal.value.wish == s.wishes[o.state.index.i]
    ensures |s.wishes| == 0 ==> o.TypeError? && o.state.modal == None
  {
    var k := RandomPosition(r, |s.wishes|);
    var s' := s.(index := Int(k));
    ShowWish(s', At(s.wishes, Int(k)), fireworks)
  }

  /** `showNextWish`: `(index + 1) % wishes.length`, then that wish. */
  function ShowNextWish(s: State, fireworks: bool): (o: Outcome)
    requires Consistent(s)
    ensures Consistent(o.state)
    ensures o.state.index == Shift(s.index, 1, |s.wishes|)
    ensures InBounds(s.index, s.wishes) ==>
      && o.Shown? && o.state.index.i == (s.index.i + 1) % |s.wishes|
      && o.state.modal.Some? && o.state.modal.value.wish == s.wishes[o.state.index.i]
    ensures |s.wishes| == 0 ==> o.TypeError? && o.state.index == NaN
  {
    var index := Shift(s.index, 1, |s.wishes|);
    ShowWish(s.(index := index), At(s.wishes, index), fireworks)
  }

  /** `showSpecialWish`: the completion wish, without the "another wish"
      button and with the special effects. */
  function ShowSpecialWish(s: State, fireworks: bool): (o: Outcome)
    requires Consistent(s)
    ensures o.Shown? && Consistent(o.state) && o.state.modal.Some?
    ensures o.state.modal.value.wish == SpecialWish
    ensures !o.state.modal.value.nextButton && o.effects.specialEffects
  {
    ShowWish(s, Some(SpecialWish), fireworks)
  }

  /** `closeModal`: starts the closing animation and schedules `removeModal`
      300 ms later; nothing when no modal is held. */
  function CloseModal(s: State): (r: State)
    requires Consistent(s)
    ensures Consistent(r)
    ensures s.modal == None ==> r == s
    ensures s.modal.Some? ==> r.modal.Some? && r.modal.value.closing
                              && r.modal.value.wish == s.modal.value.wish
                              && r.pendingRemovals == s.pendingRemovals + 1
  {
    if s.modal == None then s
    else s.(modal := Some(s.modal.value.(closing := true)), pendingRemovals := s.pendingRemovals + 1)
  }

  /** One scheduled `removeModal` timeout fires; it removes whatever modal is
      held at that moment. */
  function RemovalFires(s: State): (r: State)
    requires Consistent(s)
    ensures Consistent(r)
    ensures s.pendingRemovals == 0 ==> r == s
    ensures s.pendingRemovals > 0 ==> r.modal == None && r.pendingRemovals == s.pendingRemovals - 1
  {
    if s.pendingRemovals == 0 then s else RemoveModal(s.(pendingRemovals := s.pendingRemovals - 1))
  }

  /** The document keydown handler: Escape closes the modal while the handler
      is registered; any other key does nothing. */
  function HandleKeydown(s: State, key: string): (r: State)
    requires Consistent(s)
    ensures Consistent(r)
    ensures key == "Escape" ==> r == CloseModal(s)
    ensures key != "Escape" ==> r == s
  {
    if s.listening && key == "Escape" then CloseModal(s) else s
  }

  /** `addWish(wish)`: appended at the end, existing wishes unchanged. */
  function AddWish(s: State, w: Wish): (r: State)
    ensures |r.wishes| == |s.wishes| + 1 && r.wishes[|s.wishes|] == w
    ensures r.wishes[..|s.wishes|] == s.wishes
    ensures r.modal == s.modal && r.index == s.index && r.listening == s.listening
  {
    s.(wishes := s.wishes + [w])
  }

  /** Closing and then letting the removal fire leaves no modal. */
  lemma CloseThenRemovalLeavesNone(s: State)
    requires Consistent(s) && s.modal.Some? && s.pendingRemovals == 0
    ensures RemovalFires(CloseModal(s)).modal == None
    ensures RemovalFires(CloseModal(s)).pendingRemovals == 0
  {
  }

  /** The deferred removal is not tied to the modal it was scheduled for: a
      wish shown during the closing animation disappears when the earlier
      removal fires. */
  lemma StaleRemovalHidesNewWish(s: State, fireworks: bool)
    requires Consistent(s) && s.modal.Some?
    requires InBounds(s.index, s.wishes)
    ensures var shown := ShowNextWish(CloseModal(s), fireworks).state;
            shown.modal.Some? && RemovalFires(shown).modal == None
  {
  }

  /** A wish whose message holds no backslash is shown with its message
      exactly as written, real newlines included. */
  lemma VerbatimWithoutBackslash(s: State, w: Wish, fireworks: bool)
    requires Consistent(s) && '\\' !in w.message
    ensures ShowWish(s, Some(w), fireworks).state.modal.value.messageHtml == w.message
  {
    NoBackslashVerbatim(w.message);
  }

  /** The special message holds a real newline and no backslash, so it is
      shown as written: its newline is not turned into a line break. */
  lemma SpecialMessageHasRealNewline()
    ensures '\n' in SpecialMessage && '\\' !in SpecialMessage
  {
    assert SpecialMessage[19] == '\n';
  }

  /** A configured message starting with a backslash followed by `n` is shown
      with a `<br>` in its place and the rest, free of backslashes, as
      written. */
  lemma LiteralBackslashNRendered(rest: string)
    requires '\\' !in rest
    ensures ReplaceLiteralBreaks(['\\', 'n'] + rest) == "<br>" + rest
  {
    ReplaceLeadingBreak(rest);
    NoBackslashVerbatim(rest);
  }
}
